=== FILE: README.md ===
# Movie booking core, modelled in Dafny

A model of the decision and state-transition logic of a movie-ticket booking
application (an Express/Mongoose API with a React client). Two parts are covered:

- **Server side.** The seat ledger and booking creation, show scheduling and the
  showtime grouping by date, the favorites toggle, and the admin dashboard
  figures. Each request handler is a pure function from the relevant collections
  (and the clock reading `now`, and the ids the database hands out) to new
  collections and a reply.
- **Client side.** The seat-selection state machine, the seat grid, the displayed
  total, the checkout pre-checks with the redirect choice, and the two route
  guards.

Files, one module each:

| file | module | models |
|---|---|---|
| `wrappers.dfy` | `Wrappers` | `Option` (absent fields) and `Result` (error replies) |
| `seqs.dfy` | `Seqs` | `Array.prototype.filter`, occurrence counts, and the membership toggle shared by favorites and seat selection |
| `schemas.dfy` | `Schemas` | the user, show and booking schemas: required paths, the role enum, defaults |
| `booking.dfy` | `BookingController` | `checkSeatsAvailability`, `createBooking`, `getOccupiedSeats` |
| `shows.dfy` | `ShowController` | `addShow` validation and mapping, `getShow` grouping |
| `users.dfy` | `UserController` | `updateFavorite`, `getFavorites` |
| `admin.dfy` | `AdminController` | `isAdmin`, `getDashboardData` |
| `seat_layout.dfy` | `SeatLayout` | `handleSeatClick`, `renderSeats`, the total, `bookTickets` |
| `route_guards.dfy` | `RouteGuards` | `PrivateRoutes`, `RoleBasedRoutes` |

Modelling choices:

- **Seat ledger.** A show's seat ledger is a `map<SeatId, UserId>`. The source tests
  a seat as taken when its ledger value is truthy. The values written are always
  user ids, so the model tests key membership instead. That lookup also reads
  properties inherited from `Object.prototype`; see `BookingController.TakenSeats`
  under "Left out".
- **Optional fields.** A ledger or favorites list that may be absent in a stored
  document is an `Option`. Both controllers treat an absent one as empty. Saving a
  user through the schema always stores a list, `[]` when none was given, because
  Mongoose gives an array path an empty default.
- **Numbers and time.** Times are integer timestamps. Prices and amounts are
  integers. Over integers, the price test `!price || price <= 0` is the same as
  `price <= 0`.
- **Dates.** Date parsing and ISO formatting are function parameters (`parse`,
  `iso`). The grouping key is the text before the first `'T'`, as
  `split('T')[0]` takes it.
- **Shape of `getShow`'s reply.** It is a sequence of date groups in
  first-appearance order. This matches the insertion order of the JavaScript object
  the handler builds.

Behaviour of the code worth noting:

- **No sort in `getShow`.** Showtimes within a date keep query order, because the
  handler does not sort them.
- **Duplicate seats.** Duplicates in a booking request are not rejected. They count
  toward the 5-seat limit and toward the amount, but leave one ledger entry
  (`DuplicateSeatsChargedTwice`).
- **Seat-id format.** The server never checks the format of seat ids.
- **Duplicate favorites.** The user schema does not stop a favorites list from
  holding duplicates.
- **Empty seat ids.** The booking schema declares the `bookedSeats` elements as
  required strings. A required string rejects `""`, so a request naming an empty
  seat id fails when the booking is saved (500). Nothing has been written to the
  ledger by then. The model includes this step as `BookingFailed`.

## Model

| member | source | states |
|---|---|---|
| `Schemas.ParseRole` | server/api/models/User.js:9-13 | the role enum accepts exactly "user" and "admin", case-sensitively, and maps back to the same string |
| `Schemas.ValidateUser` | server/api/models/User.js:6-20 | a user saves iff its role is present and in the enum; name, email and password are kept exactly as given; the favorites list is kept when given and defaults to an empty list |
| `Schemas.UserSchemaRoundTrip` | server/api/models/User.js:6-20 | a stored user's own fields validate back to the same user when it has a favorites list; without one, the only change is the empty-list default |
| `Schemas.UserSchemaHasNoUniqueness` | server/api/models/User.js:6-20 | a favorites list may repeat a movie, and the role enum is case-sensitive, so "Admin" is not a valid role (email uniqueness is checked by the registration handler, not the schema) |
| `Schemas.ValidateShow` | server/api/models/Shows.js:7-11 | a show saves iff movie (non-empty), date-time and price are present; a given ledger is stored as is and an unset one defaults to the empty map |
| `Schemas.ValidateBooking` | server/api/models/Bookings.js:6-11 | a booking saves iff user, show and amount are present and no seat id is empty, and with those present an empty seat id fails the `bookedSeats` path alone; a given isPaid is kept and an unset one defaults to false; paymentLink stays as given |
| `Schemas.BookingSchemaRoundTrip` | server/api/models/Bookings.js:6-11 | a stored booking's own fields validate back to the same booking exactly when none of its seat ids is empty; otherwise only `bookedSeats` fails |
| `Seqs.Toggle` | server/controller/userController.js:43-48 | the toggled element ends up present iff it was absent; other elements keep their membership; an absent element is appended at the end after the unchanged list |
| `Seqs.ToggleRemovesAll` | server/controller/userController.js:47-48 | toggling a present element deletes every occurrence and keeps all other entries, with their order and multiplicity |
| `Seqs.ToggleTwiceRestores` | server/controller/userController.js:43-48 | toggling an absent element twice gives back the original list |
| `Seqs.TogglePreservesNoDuplicates` | client/src/pages/SeatLayout.jsx:100 | toggling never introduces a duplicate into a duplicate-free list |
| `BookingController.TakenSeats` | server/controller/bookingController.js:62-64 | the reported seats are exactly the requested seats that are in the ledger, as a subsequence of the request, each reported as many times as it was requested; the list is empty iff no requested seat is taken |
| `BookingController.Occupy` | server/controller/bookingController.js:83-85 | after the write, the ledger's keys are the old keys plus the requested seats; each requested seat maps to the caller; every other entry is unchanged |
| `BookingController.NoPaymentUrl` | server/controller/bookingController.js:120-123 | without a payment provider the redirect is an in-app path (it starts with '/') that ends with the booking id |
| `BookingController.CheckSeatsAvailability` | server/controller/bookingController.js:13-26 | false for a missing or empty list and for an unknown show; otherwise true iff no requested seat is a ledger key |
| `BookingController.GetOccupiedSeats` | server/controller/bookingController.js:143-152 | 404 iff the show is unknown; otherwise the ledger's keys, and the empty set when the show has no ledger |
| `BookingController.Status` | server/controller/bookingController.js:42-149 | each refusal maps to the status the handlers reply with: 404 only for an unknown show (lines 47, 149), 500 for the price check and the failed save (lines 55, 139), 400 for the seat count, a past show and taken seats (lines 42, 51, 65) |
| `BookingController.CreateBooking` | server/controller/bookingController.js:41-87 | the checks run in order (seat count 1..5, show exists, show in the future, price positive, no seat taken, the taken seats being reported in request order); a request passing all five checks with an empty seat id fails at the booking save with the `bookedSeats` error; every failure leaves the store unchanged; success iff all pass; on success one unpaid booking with amount price × request length is appended, each requested seat maps to the caller, and every other ledger entry and every other show is unchanged |
| `BookingController.SeatTestAgrees` | server/controller/bookingController.js:62-69 | once the earlier checks pass, the inline taken-seat test rejects exactly when `checkSeatsAvailability` answers false |
| `BookingController.BookedSeatsUnavailable` | server/controller/bookingController.js:83-85 | after a successful booking, availability of any list overlapping the booked seats is false |
| `BookingController.OccupiedSeatsAfterBooking` | server/controller/bookingController.js:148-152 | after a successful booking, the occupied-seat query returns the earlier keys plus the booked seats |
| `BookingController.OverlappingBookingRejected` | server/controller/bookingController.js:62-69 | a second booking in sequence that shares a seat with the first is refused, and the refusal names every shared seat |
| `BookingController.DisjointBookingsBothSucceed` | server/controller/bookingController.js:41-87 | a second booking in sequence on seats free of the ledger and of the first booking succeeds |
| `BookingController.DuplicateSeatsChargedTwice` | server/controller/bookingController.js:71-85 | a request ["Z99", "Z99"] at price 150 succeeds, is charged 300 and leaves the single ledger key "Z99" |
| `BookingController.TwoCustomersScenario` | server/controller/bookingController.js:41-87 | price 200: U's booking of B1 and B2 costs 400 and maps both seats to U; V's following request for B2 and B3 is refused, naming only B2, with the store unchanged |
| `ShowController.DatePart` | server/controller/showController.js:203 | the key is the longest prefix without 'T': a prefix of the timestamp, free of 'T', followed by 'T' or the end of the string |
| `ShowController.DatePartOfPrefix` | server/controller/showController.js:203 | `split('T')[0]` of any timestamp that starts with a date free of 'T' followed by 'T' is that date, whatever follows |
| `ShowController.DatePartOfDateTime` | server/controller/showController.js:144 | the date of a "date T time" string is recovered as its key when the date holds no 'T' |
| `ShowController.AddShow` | server/controller/showController.js:84-86 | the request is refused iff the movie id is falsy, the input list is missing or empty, or the price is missing or 0; otherwise it yields the mapped show documents |
| `ShowController.ShowsToCreate` | server/controller/showController.js:143-151 | one show per input entry, in input order, each with the movie id, the price, an empty ledger and the date-time parsed from date + "T" + time |
| `ShowController.AddedShowsFitSchema` | server/api/models/Shows.js:7-11 | every show built by `addShow` passes the show schema unchanged |
| `ShowController.NegativePriceStoredButUnbookable` | server/controller/showController.js:84-86 | a negative price passes `addShow`, and any booking of such a show is refused with the invalid-price error |
| `ShowController.Upcoming` | server/controller/showController.js:194-197 | the query keeps exactly the shows of the requested movie that start at or after now |
| `ShowController.GroupByDate` | server/controller/showController.js:200-211 | the slot total equals the number of shows and no date group is empty; the per-date content is stated by `GroupByDateCorrect` |
| `ShowController.GetShow` | server/controller/showController.js:190-211 | the dates are distinct; no date group is empty; a date appears iff some upcoming show of the movie falls on it; each date lists exactly the slots of the upcoming shows of the movie on it, in query order; every upcoming show is listed under its own date; the slot total equals the number of upcoming shows |
| `ShowController.SlotsOnHoldsEveryDoc` | server/controller/showController.js:202-210 | every show's slot is among the slots of its own date |
| `ShowController.GroupByDateDates` | server/controller/showController.js:202-211 | the grouped dates are distinct, and a date is a key of the result exactly when some show's timestamp falls on it |
| `ShowController.GroupByDateLookup` | server/controller/showController.js:202-211 | the slots under any date are exactly the slots of the shows on that date, in query order |
| `ShowController.GroupByDateCorrect` | server/controller/showController.js:202-211 | dates are distinct; no group is empty; a date appears iff some show has that key; each date lists exactly its shows' slots in query order; the slot total equals the number of shows |
| `ShowController.GetShowListsUpcomingShows` | server/controller/showController.js:194-211 | every listed slot comes from an upcoming show of the requested movie, under that show's own date; every upcoming show of the movie is listed under its own date; the slot total equals the number of upcoming shows |
| `ShowController.AddedShowListedUnderItsDate` | server/controller/showController.js:203 | a show whose ISO timestamp starts with the input date followed by 'T' (whatever time, seconds and zone follow) is listed under that date: the date is a key of the grouping and the show's own slot is in that date's group |
| `UserController.Status` | server/controller/userController.js:30-75 | a missing movie id is 400 (line 32), a missing caller 401 (line 70), an unknown user 404 (lines 38, 75), each code belonging to exactly one error |
| `UserController.UpdateFavorite` | server/controller/userController.js:30-57 | 400 for a falsy movie id and 404 for an unknown user, both with the users unchanged; otherwise only the caller's favorites change, to the toggle of the old list (absent meaning empty), and the reply is the new list |
| `UserController.FavoriteTwiceRestores` | server/controller/userController.js:43-48 | favoriting a non-favorite and then un-favoriting it restores the caller's list |
| `UserController.UnfavoriteRemovesEveryOccurrence` | server/controller/userController.js:47-48 | un-favoriting removes every occurrence and keeps the other entries, in order and with their multiplicity |
| `UserController.ToggledMovieListed` | server/controller/userController.js:43-48 | right after a caller favorites a catalog movie it is listed by the favorites query, and right after they un-favorite it, it is not |
| `UserController.GetFavorites` | server/controller/userController.js:66-87 | 401 without a caller id; 404 for an unknown user; an empty list when favorites are absent; otherwise exactly the catalog movies whose id is a favorite |
| `AdminController.IsAdmin` | server/controller/adminController.js:5-10 | the reply holds exactly for the one string the user schema parses as the admin role |
| `AdminController.MiddlewareAdmits` | server/api/Middleware/authMiddleware.js:44 | the middleware admits exactly the five-letter strings spelling "admin" in any mix of letter cases, so every role `isAdmin` accepts |
| `AdminController.IsAdminMatchesSchemaRole` | server/controller/adminController.js:8 | on schema roles, `isAdmin` holds exactly for the admin role and agrees with the middleware's lower-casing test; "Admin" passes the middleware test but not `isAdmin` |
| `AdminController.GetDashboardData` | server/controller/adminController.js:14-24 | active shows are exactly the shows starting at or after now; the booking count never exceeds the number of bookings; the user count is passed through |
| `AdminController.DashboardCountsPaidBookings` | server/controller/adminController.js:14-21 | the booking count equals the number of paid bookings, and the revenue equals the sum of the paid amounts |
| `AdminController.NoPaidBookingsNoRevenue` | server/controller/adminController.js:21 | with no paid booking, both the count and the revenue are 0 |
| `AdminController.NewBookingEffect` | server/controller/adminController.js:14-21 | adding an unpaid booking changes no figure; adding a paid one adds 1 to the count and its amount to the revenue |
| `SeatLayout.HandleSeatClick` | client/src/pages/SeatLayout.jsx:90-101 | with no time chosen, the selection is unchanged; an unselected seat is refused at 5 selected, and this limit is tested before occupancy; an occupied seat never changes the selection; otherwise the click removes every occurrence of a selected seat and keeps the other selected seats in order, or appends a new seat at the end; the time and occupancy are untouched; the size never passes 5; only the clicked, unoccupied seat can be added |
| `SeatLayout.ClickPreservesInvariant` | client/src/pages/SeatLayout.jsx:94-100 | a click keeps the selection duplicate-free and at most 5 long |
| `SeatLayout.ClicksPreserveInvariant` | client/src/pages/SeatLayout.jsx:90-101 | any run of clicks keeps that invariant and only ever selects seats that were clicked |
| `SeatLayout.NatToStringRoundTrip` | client/src/pages/SeatLayout.jsx:107 | reading back a rendered seat number gives the number |
| `SeatLayout.SeatLabelInjective` | client/src/pages/SeatLayout.jsx:107 | distinct (row, number) pairs give distinct seat labels |
| `SeatLayout.RowSeats` | client/src/pages/SeatLayout.jsx:103-107 | a row renders `count` labels, the i-th being the row letter followed by i + 1 |
| `SeatLayout.RowLetters` | client/src/pages/SeatLayout.jsx:12 | the row groups, read in render order, are the letters A to J |
| `SeatLayout.GridShape` | client/src/pages/SeatLayout.jsx:262-270 | the page renders 90 distinct labels; a label is rendered iff it is a letter A–J followed by a digit 1–9 |
| `SeatLayout.DisplayedTotalIgnoresShowPrice` | client/src/pages/SeatLayout.jsx:276 | as written, for any successful booking on a show not priced 150, the total the page shows differs from the amount charged |
| `SeatLayout.ClientShowPrice` | client/src/pages/SeatLayout.jsx:45 | the kept price is never 0: a non-zero reply price is kept, and an absent or zero one falls back to 150 |
| `SeatLayout.DisplayedTotal` | client/src/pages/SeatLayout.jsx:276 | the total as written is the corrected total at the default price of 150, whatever the show costs |
| `SeatLayout.CorrectedTotalMatchesCharge` | client/src/pages/SeatLayout.jsx:276 | the total computed with the show's own price equals the amount the server charges |
| `SeatLayout.BookTickets` | client/src/pages/SeatLayout.jsx:128-134 | no request without a user; with a user, anything short of a request is the show-and-seat notice; a request is sent iff there is a user, a non-empty show id and a seat, and it carries exactly that show id and selection |
| `SeatLayout.PostedSelectionPassesSeatCount` | client/src/pages/SeatLayout.jsx:136-143 | every request the page sends from a selection it maintains passes the server's seat-count check and repeats no seat |
| `SeatLayout.FollowBookingUrl` | client/src/pages/SeatLayout.jsx:145-153 | a URL starting with '/' is navigated in the app and any other URL is a full redirect, each to exactly that URL |
| `SeatLayout.CreatedBookingNavigatesInApp` | client/src/pages/SeatLayout.jsx:145-149 | without a payment provider, the URL of a successful booking is navigated in the app |
| `RouteGuards.PrivateRoute` | client/src/utils/PrivateRoutes.jsx:7-13 | loading shows the loading screen; no user redirects to /login; the children render iff not loading and a user is present |
| `RouteGuards.RoleBasedRoute` | client/src/utils/RoleBaseRoutes.jsx:7-16 | loading shows the loading screen; no user redirects to /login; the children render iff a user's role is listed; an unlisted role goes to /admin for "admin" and to /home otherwise |
| `RouteGuards.RoleGuardRefinesAuthGuard` | client/src/utils/RoleBaseRoutes.jsx:7-16 | the role guard renders children only when the auth guard does, and agrees with it unless a signed-in user's role is unlisted |

## Left out

- The payment-provider branch of `createBooking` is not modelled: the checkout session, `unit_amount = Math.floor(totalAmount * 100)` and storing `paymentLink`. It is a foreign API working on floating point. Only the no-provider redirect is modelled.
- The movie-catalog fetch and Movie creation in `addShow` and `getNowPlayingMovies` are network I/O. `AddShow` assumes the movie exists or was created with id `movieId`.
- `getShows` and its `Set` of populated movie documents is not modelled. Its deduplication depends on object identity.
- The race between concurrent `createBooking` calls is not modelled: each call is one atomic step. `OverlappingBookingRejected` covers the sequential case.
- Date parsing, time zones and ISO formatting are the `parse` and `iso` parameters.
- Database plumbing is not modelled: sorts, populates, `getUserBookings`, `getAllShows` and `getAllBookings`. Query results are input sequences in query order. `countDocuments` is the `totalUser` parameter.
- Database and cast errors caught by the `try`/`catch` blocks (500 replies, and `false` from `checkSeatsAvailability`) are not modelled. An unknown id is modelled as a missing show or user.
- Prices and amounts are integers. Fractional prices, `NaN` and string prices passed through `Number(...)` are not modelled.
- Error message texts are not modelled. Errors are variants that carry their data, such as the taken seats.
- Authentication, tokens and password hashing are not modelled. The admin middleware contributes only its lower-casing role test, used for comparison in `IsAdminMatchesSchemaRole`.
- React rendering, toasts, effects and the client's date fallback are not modelled. The toasts of a seat click are the `ClickNotice` values.
- Timestamps (`createdAt`, `updatedAt`) and `profileImage` are not modelled.
- BookingController.TakenSeats: tests key membership in a map, while the source's `occupiedSeats[seat]` (server/controller/bookingController.js:24, 62, 64) also finds properties inherited from `Object.prototype`. The server never checks the format of seat ids. So a request for `["constructor"]` or `["toString"]` on an empty ledger is refused as taken by the source, and `checkSeatsAvailability` answers false, while the model books it. The same gap applies to `BookingController.CheckSeatsAvailability`. JavaScript's prototype lookup is outside the model.
- AdminController.ToLower: lower-cases ASCII letters only. JavaScript's `toLowerCase` also maps other letters and can change a string's length, so `ToLower` agrees with it only on the question that matters here: whether the result is "admin".
- GetOccupiedSeats: returns a set, so the key order of `Object.keys` is not modelled.
- GetFavorites: returns movie ids in the order of a `catalog` parameter that stands for the `Movie.find` result, not the movie documents themselves.

## Findings

| source | as written | input that shows it | evidently intended | confidence | as-written member | corrected member |
|---|---|---|---|---|---|---|
| client/src/pages/SeatLayout.jsx:45 | the page keeps `data.showPrice`, falling back to 150; the showtimes reply (server/controller/showController.js:213-217) has no `showPrice` field, so the total on line 276 is always 150 per seat | a show priced 200 with one seat selected: the page shows 150, the server charges 200 | the total uses the selected show's own price, as the server does | medium, not executed | `SeatLayout.DisplayedTotalIgnoresShowPrice` | `SeatLayout.CorrectedTotalMatchesCharge` |

=== FILE: admin.dfy ===
/** The admin controller: the role test and the dashboard figures. */
module AdminController {
  import opened Wrappers
  import opened Seqs
  import opened Schemas

  /** `isAdmin`: an exact, case-sensitive comparison with "admin"; it holds
      exactly of the string the user schema parses as the admin role. */
  function IsAdmin(role: string): (r: bool)
    ensures r <==> ParseRole(role) == Some(AdminRole)
  {
    role == "admin"
  }

  /** One character lower-cased: only 'A'..'Z' change. */
  function LowerChar(c: char): char {
    if 'A' <= c <= 'Z' then (c as int + 32) as char else c
  }

  /** Lower-casing of the ASCII letters only. JavaScript's `toLowerCase` also
      maps non-ASCII letters, and 'İ' (U+0130) even becomes two code units, so
      the two differ in general. They agree on which strings lower-case to
      "admin": the only non-ASCII source of a lower-case ASCII letter in
      `toLowerCase` is KELVIN SIGN (to 'k') and 'İ' (to "i" plus a combining
      dot), and neither can produce "admin". */
  function ToLower(s: string): (r: string)
    ensures |r| == |s|
    ensures forall i :: 0 <= i < |s| ==> r[i] == LowerChar(s[i])
  {
    if |s| == 0 then ""
    else [LowerChar(s[0])] + ToLower(s[1..])
  }

  /** The admin middleware's role test: "admin" in any mix of letter cases. */
  function MiddlewareAdmits(role: string): (r: bool)
    ensures r <==> |role| == 5 && forall i :: 0 <= i < 5 ==> role[i] == "admin"[i] || role[i] == "ADMIN"[i]
    ensures IsAdmin(role) ==> r
  {
    ToLower(role) == "admin"
  }

  /** On every role the user schema admits, `isAdmin` is the schema's admin
      role; only a role outside the enum, such as "Admin", separates it from
      the middleware's case-insensitive test. */
  lemma IsAdminMatchesSchemaRole(r: Role)
    ensures IsAdmin(RoleName(r)) <==> r == AdminRole
    ensures IsAdmin(RoleName(r)) <==> MiddlewareAdmits(RoleName(r))
    ensures MiddlewareAdmits("Admin") && !IsAdmin("Admin") && ParseRole("Admin").None?
  {
    assert ToLower("user") == "user";
    assert ToLower("admin") == "admin";
    assert ToLower("Admin") == "admin";
  }

  datatype Dashboard = Dashboard(totalBookings: nat, totalRevenue: int, activeShows: seq<StoredShow>, totalUser: nat)

  /** `reduce((acc, b) => acc + b.amount, acc)`: a left fold. */
  function SumAmounts(bookings: seq<Booking>, acc: int): int {
    if |bookings| == 0 then acc else SumAmounts(bookings[1..], acc + bookings[0].amount)
  }

  function IsPaid(b: Booking): bool {
    b.isPaid
  }

  /** `getDashboardData` over the booking and show collections (in query order)
      and the user count. */
  function GetDashboardData(bookings: seq<Booking>, shows: seq<StoredShow>, now: int, totalUser: nat): (r: Dashboard)
    ensures forall d :: d in r.activeShows <==> d in shows && d.show.showDateTime >= now
    ensures r.totalBookings <= |bookings|
    ensures r.totalUser == totalUser
  {
    var paid := Filter(bookings, IsPaid);
    Dashboard(|paid|, SumAmounts(paid, 0), Filter(shows, (d: StoredShow) => d.show.showDateTime >= now), totalUser)
  }

  /** Reference definitions: paid bookings counted and summed one at a time. */
  function PaidCount(bookings: seq<Booking>): nat {
    if |bookings| == 0 then 0
    else PaidCount(bookings[..|bookings| - 1]) + (if bookings[|bookings| - 1].isPaid then 1 else 0)
  }

  function PaidRevenue(bookings: seq<Booking>): int {
    if |bookings| == 0 then 0
    else PaidRevenue(bookings[..|bookings| - 1]) +
         (if bookings[|bookings| - 1].isPaid then bookings[|bookings| - 1].amount else 0)
  }

  lemma {:induction false} SumAmountsShift(bookings: seq<Booking>, acc: int)
    ensures SumAmounts(bookings, acc) == acc + SumAmounts(bookings, 0)
  {
    if |bookings| > 0 {
      SumAmountsShift(bookings[1..], acc + bookings[0].amount);
      SumAmountsShift(bookings[1..], bookings[0].amount);
    }
  }

  lemma {:induction false} SumAmountsAppend(bookings: seq<Booking>, b: Booking)
    ensures SumAmounts(bookings + [b], 0) == SumAmounts(bookings, 0) + b.amount
  {
    if |bookings| > 0 {
      assert (bookings + [b])[1..] == bookings[1..] + [b];
      SumAmountsAppend(bookings[1..], b);
      SumAmountsShift(bookings[1..] + [b], bookings[0].amount);
      SumAmountsShift(bookings[1..], bookings[0].amount);
    } else {
      assert bookings + [b] == [b];
    }
  }

  /** The dashboard counts exactly the paid bookings and sums exactly their
      amounts. */
  lemma {:induction false} DashboardCountsPaidBookings(bookings: seq<Booking>, shows: seq<StoredShow>, now: int, totalUser: nat)
    ensures GetDashboardData(bookings, shows, now, totalUser).totalBookings == PaidCount(bookings)
    ensures GetDashboardData(bookings, shows, now, totalUser).totalRevenue == PaidRevenue(bookings)
  {
    if |bookings| > 0 {
      var init := bookings[..|bookings| - 1];
      var last := bookings[|bookings| - 1];
      assert init + [last] == bookings;
      DashboardCountsPaidBookings(init, shows, now, totalUser);
      FilterAppend(init, [last], IsPaid);
      if last.isPaid {
        assert Filter([last], IsPaid) == [last];
        SumAmountsAppend(Filter(init, IsPaid), last);
      } else {
        assert Filter(init, IsPaid) + Filter([last], IsPaid) == Filter(init, IsPaid);
      }
    }
  }

  /** With no paid booking the revenue is 0. */
  lemma NoPaidBookingsNoRevenue(bookings: seq<Booking>, shows: seq<StoredShow>, now: int, totalUser: nat)
    requires forall i :: 0 <= i < |bookings| ==> !bookings[i].isPaid
    ensures GetDashboardData(bookings, shows, now, totalUser).totalBookings == 0
    ensures GetDashboardData(bookings, shows, now, totalUser).totalRevenue == 0
  {
    FilterKeepsNone(bookings, IsPaid);
  }

  /** A new unpaid booking moves neither figure; a paid one adds one booking
      and its amount. */
  lemma NewBookingEffect(bookings: seq<Booking>, b: Booking, shows: seq<StoredShow>, now: int, totalUser: nat)
    ensures var before := GetDashboardData(bookings, shows, now, totalUser);
            var after := GetDashboardData(bookings + [b], shows, now, totalUser);
            && (!b.isPaid ==> after == before)
            && (b.isPaid ==> after.totalBookings == before.totalBookings + 1 &&
                             after.totalRevenue == before.totalRevenue + b.amount)
  {
    DashboardCountsPaidBookings(bookings, shows, now, totalUser);
    DashboardCountsPaidBookings(bookings + [b], shows, now, totalUser);
    assert (bookings + [b])[..|bookings|] == bookings;
  }
}

=== FILE: booking.dfy ===
/** The booking controller: the seat ledger queries and the booking creation
    chain. The database is a `Store` value; each call is one atomic step
    from a store to a store. */
module BookingController {
  import opened Wrappers
  import opened Seqs
  import opened Schemas

  /** The most seats one booking request may name (duplicates included). */
  const MaxSeatsPerBooking := 5

  datatype Store = Store(shows: map<ShowId, Show>, bookings: seq<Booking>)

  datatype BookingError =
    | InvalidSeats
    | ShowNotFound
    | ShowExpired
    | InvalidPrice
    | SeatsTaken(taken: seq<SeatId>)
    | BookingFailed(paths: seq<string>)

  /** HTTP status of each failure: 404 only for an unknown show, 500 for the
      price check and the failed save, 400 for every other refusal. */
  function Status(e: BookingError): (r: int)
    ensures r == 404 <==> e.ShowNotFound?
    ensures r == 500 <==> e.InvalidPrice? || e.BookingFailed?
    ensures r == 400 <==> e.InvalidSeats? || e.ShowExpired? || e.SeatsTaken?
  {
    match e
    case InvalidSeats => 400
    case ShowNotFound => 404
    case ShowExpired => 400
    case InvalidPrice => 500
    case SeatsTaken(_) => 400
    case BookingFailed(_) => 500
  }

  datatype BookingReply = Created(url: string, bookingId: BookingId) | Rejected(error: BookingError)

  datatype BookingOutcome = BookingOutcome(store: Store, reply: BookingReply)

  /** An absent ledger reads as the empty ledger. */
  function LedgerOf(s: Show): Ledger {
    s.occupiedSeats.GetOr(map[])
  }

  /** The request's seat list is an array of 1 to 5 entries. */
  predicate SeatCountOk(seats: Option<seq<SeatId>>) {
    seats.Some? && 0 < |seats.value| <= MaxSeatsPerBooking
  }

  /** The requested seats that already hold a ledger entry, in request order. */
  function TakenSeats(seats: seq<SeatId>, ledger: Ledger): (r: seq<SeatId>)
    ensures forall s :: s in r <==> s in seats && s in ledger
    ensures |r| == 0 <==> forall s :: s in seats ==> s !in ledger
    ensures IsSubsequence(r, seats)
    // a taken seat is reported as often as it was requested
    ensures forall s :: Count(r, s) == if s in ledger then Count(seats, s) else 0
  {
    FilterIsSubsequence(seats, s => s in ledger);
    forall s ensures Count(Filter(seats, s => s in ledger), s) == if s in ledger then Count(seats, s) else 0 {
      FilterCount(seats, s => s in ledger, s);
    }
    var r := Filter(seats, s => s in ledger);
    assert |r| > 0 ==> r[0] in r;
    r
  }

  /** Writes every requested seat into the ledger, held by `user`. */
  function Occupy(ledger: Ledger, seats: seq<SeatId>, user: UserId): (r: Ledger)
    decreases |seats|
    ensures r.Keys == ledger.Keys + set i | 0 <= i < |seats| :: seats[i]
    ensures forall i :: 0 <= i < |seats| ==> r[seats[i]] == user
    ensures forall k :: k in ledger && k !in seats ==> r[k] == ledger[k]
  {
    if |seats| == 0 then ledger
    else
      var r := Occupy(ledger[seats[0] := user], seats[1..], user);
      assert forall i :: 1 <= i < |seats| ==> seats[i] == seats[1..][i - 1];
      r
  }

  /** The redirect target when no payment provider is configured. */
  function NoPaymentUrl(id: BookingId): (url: string)
    ensures |url| > |id| && url[0] == '/'
    ensures url[|url| - |id|..] == id
  {
    "/my-bookings?bookingId=" + id
  }

  /** `checkSeatsAvailability`: false on an empty or non-array list and on an
      unknown show, otherwise true exactly when no requested seat is taken. */
  function CheckSeatsAvailability(st: Store, showId: ShowId, seats: Option<seq<SeatId>>): (r: bool)
    ensures r <==> (seats.Some? && |seats.value| > 0 && showId in st.shows &&
                    forall s :: s in seats.value ==> s !in LedgerOf(st.shows[showId]))
  {
    if seats.None? || |seats.value| == 0 then false
    else if showId !in st.shows then false
    else |TakenSeats(seats.value, LedgerOf(st.shows[showId]))| == 0
  }

  /** `getOccupiedSeats`: the ledger's keys; 404 for an unknown show; empty when
      the show has no ledger. */
  function GetOccupiedSeats(st: Store, showId: ShowId): (r: Result<set<SeatId>, BookingError>)
    ensures showId !in st.shows <==> r == Err(ShowNotFound)
    ensures r.Ok? ==> r.value == LedgerOf(st.shows[showId]).Keys
    ensures showId in st.shows && st.shows[showId].occupiedSeats.None? ==> r == Ok({})
  {
    if showId !in st.shows then Err(ShowNotFound)
    else match st.shows[showId].occupiedSeats
      case None => Ok({})
      case Some(ledger) => Ok(ledger.Keys)
  }

  /** Every check of the chain passes. */
  predicate Bookable(st: Store, showId: ShowId, seats: Option<seq<SeatId>>, now: int) {
    && SeatCountOk(seats)
    && showId in st.shows
    && st.shows[showId].showDateTime > now
    && st.shows[showId].showPrice > 0
    && (forall s :: s in seats.value ==> s !in LedgerOf(st.shows[showId]))
    && "" !in seats.value
  }

  /** What a successful booking of `seats` on `showId` by `user` did to the store. */
  ghost predicate Booked(st: Store, st': Store, user: UserId, showId: ShowId, seats: seq<SeatId>, id: BookingId)
    requires showId in st.shows
  {
    var show := st.shows[showId];
    var ledger := LedgerOf(show);
    && st'.bookings == st.bookings + [Booking(id, user, showId, show.showPrice * |seats|, seats, false, None)]
    && st'.shows.Keys == st.shows.Keys
    && (forall other :: other in st.shows && other != showId ==> st'.shows[other] == st.shows[other])
    && var show' := st'.shows[showId];
    && show'.movie == show.movie
    && show'.showDateTime == show.showDateTime
    && show'.showPrice == show.showPrice
    && show'.occupiedSeats.Some?
    && var ledger' := show'.occupiedSeats.value;
    && ledger'.Keys == ledger.Keys + (set i | 0 <= i < |seats| :: seats[i])
    && (forall i :: 0 <= i < |seats| ==> ledger'[seats[i]] == user)
    && (forall k :: k in ledger && k !in seats ==> ledger'[k] == ledger[k])
  }

  /** `createBooking` without a payment provider. `now` is the clock reading and
      `id` the id the database gives the new booking. */
  function CreateBooking(st: Store, user: UserId, showId: ShowId, seats: Option<seq<SeatId>>,
                         now: int, id: BookingId): (r: BookingOutcome)
    // the validation chain, in order
    ensures !SeatCountOk(seats) ==> r.reply == Rejected(InvalidSeats)
    ensures SeatCountOk(seats) && showId !in st.shows ==> r.reply == Rejected(ShowNotFound)
    ensures SeatCountOk(seats) && showId in st.shows && st.shows[showId].showDateTime <= now ==>
              r.reply == Rejected(ShowExpired)
    ensures (SeatCountOk(seats) && showId in st.shows && st.shows[showId].showDateTime > now &&
             st.shows[showId].showPrice <= 0) ==> r.reply == Rejected(InvalidPrice)
    ensures (SeatCountOk(seats) && showId in st.shows && st.shows[showId].showDateTime > now &&
             st.shows[showId].showPrice > 0 && |TakenSeats(seats.value, LedgerOf(st.shows[showId]))| > 0) ==>
              r.reply == Rejected(SeatsTaken(TakenSeats(seats.value, LedgerOf(st.shows[showId]))))
    // an empty seat id passes the seat test but fails the booking save
    ensures (SeatCountOk(seats) && showId in st.shows && st.shows[showId].showDateTime > now &&
             st.shows[showId].showPrice > 0 && |TakenSeats(seats.value, LedgerOf(st.shows[showId]))| == 0 &&
             "" in seats.value) ==> r.reply == Rejected(BookingFailed(["bookedSeats"]))
    ensures r.reply.Rejected? && r.reply.error.SeatsTaken? ==>
              r.reply.error.taken == TakenSeats(seats.value, LedgerOf(st.shows[showId])) &&
              |r.reply.error.taken| > 0
    // failures leave the store as it was
    ensures r.reply.Rejected? ==> r.store == st
    // success exactly when every check passes
    ensures r.reply.Created? <==> Bookable(st, showId, seats, now)
    ensures r.reply.Created? ==> r.reply == Created(NoPaymentUrl(id), id)
    ensures r.reply.Created? ==> Booked(st, r.store, user, showId, seats.value, id)
  {
    if !SeatCountOk(seats) then BookingOutcome(st, Rejected(InvalidSeats))
    else if showId !in st.shows then BookingOutcome(st, Rejected(ShowNotFound))
    else
      var show := st.shows[showId];
      if show.showDateTime <= now then BookingOutcome(st, Rejected(ShowExpired))
      else if show.showPrice <= 0 then BookingOutcome(st, Rejected(InvalidPrice))
      else
        var ledger := LedgerOf(show);
        var taken := TakenSeats(seats.value, ledger);
        if |taken| > 0 then BookingOutcome(st, Rejected(SeatsTaken(taken)))
        else
          var fields := BookingFields(Some(user), Some(showId), Some(show.showPrice * |seats.value|),
                                      seats.value, Some(false), None);
          match ValidateBooking(id, fields)
          case Err(e) => BookingOutcome(st, Rejected(BookingFailed(e.paths)))
          case Ok(booking) =>
            var show' := show.(occupiedSeats := Some(Occupy(ledger, seats.value, user)));
            BookingOutcome(Store(st.shows[showId := show'], st.bookings + [booking]),
                           Created(NoPaymentUrl(id), id))
  }

  /** Inside the chain, the inline seat test rejects exactly when the
      standalone availability query answers false. */
  lemma SeatTestAgrees(st: Store, user: UserId, showId: ShowId, seats: Option<seq<SeatId>>, now: int, id: BookingId)
    requires SeatCountOk(seats) && showId in st.shows
    requires st.shows[showId].showDateTime > now && st.shows[showId].showPrice > 0
    ensures CreateBooking(st, user, showId, seats, now, id).reply.Rejected? &&
            CreateBooking(st, user, showId, seats, now, id).reply.error.SeatsTaken?
            <==> !CheckSeatsAvailability(st, showId, seats)
  {
  }

  /** Round trip: once booked, any request overlapping the booked seats is
      reported unavailable. */
  lemma BookedSeatsUnavailable(st: Store, user: UserId, showId: ShowId, seats: Option<seq<SeatId>>,
                               now: int, id: BookingId, probe: seq<SeatId>)
    requires CreateBooking(st, user, showId, seats, now, id).reply.Created?
    requires exists s :: s in probe && s in seats.value
    ensures !CheckSeatsAvailability(CreateBooking(st, user, showId, seats, now, id).store, showId, Some(probe))
  {
    var st' := CreateBooking(st, user, showId, seats, now, id).store;
    var s :| s in probe && s in seats.value;
    var i :| 0 <= i < |seats.value| && seats.value[i] == s;
    assert s in LedgerOf(st'.shows[showId]);
  }

  /** Round trip: the occupied-seat query after a booking returns the earlier
      keys plus the booked seats. */
  lemma OccupiedSeatsAfterBooking(st: Store, user: UserId, showId: ShowId, seats: Option<seq<SeatId>>,
                                  now: int, id: BookingId)
    requires CreateBooking(st, user, showId, seats, now, id).reply.Created?
    ensures GetOccupiedSeats(CreateBooking(st, user, showId, seats, now, id).store, showId)
            == Ok(LedgerOf(st.shows[showId]).Keys + set s | s in seats.value)
  {
    var sv := seats.value;
    assert (set s | s in sv) == (set i | 0 <= i < |sv| :: sv[i]) by {
      forall s | s in sv ensures s in (set i | 0 <= i < |sv| :: sv[i]) {
        var i :| 0 <= i < |sv| && sv[i] == s;
      }
    }
  }

  /** Two bookings in sequence that share a seat: the second is refused and
      names every shared seat. */
  lemma OverlappingBookingRejected(st: Store, showId: ShowId, u1: UserId, seats1: Option<seq<SeatId>>,
                                   now: int, id1: BookingId, u2: UserId, seats2: Option<seq<SeatId>>,
                                   now2: int, id2: BookingId)
    requires CreateBooking(st, u1, showId, seats1, now, id1).reply.Created?
    requires SeatCountOk(seats2) && now2 < st.shows[showId].showDateTime
    requires exists s :: s in seats1.value && s in seats2.value
    ensures var st' := CreateBooking(st, u1, showId, seats1, now, id1).store;
            var reply := CreateBooking(st', u2, showId, seats2, now2, id2).reply;
            && reply.Rejected? && reply.error.SeatsTaken?
            && forall s :: s in seats1.value && s in seats2.value ==> s in reply.error.taken
  {
    var st' := CreateBooking(st, u1, showId, seats1, now, id1).store;
    var s :| s in seats1.value && s in seats2.value;
    var i :| 0 <= i < |seats1.value| && seats1.value[i] == s;
    assert s in LedgerOf(st'.shows[showId]);
    forall t | t in seats1.value && t in seats2.value
      ensures t in LedgerOf(st'.shows[showId])
    {
      var j :| 0 <= j < |seats1.value| && seats1.value[j] == t;
    }
  }

  /** Two bookings in sequence on disjoint free seats both succeed. */
  lemma DisjointBookingsBothSucceed(st: Store, showId: ShowId, u1: UserId, seats1: Option<seq<SeatId>>,
                                    now: int, id1: BookingId, u2: UserId, seats2: Option<seq<SeatId>>,
                                    now2: int, id2: BookingId)
    requires CreateBooking(st, u1, showId, seats1, now, id1).reply.Created?
    requires SeatCountOk(seats2) && now2 < st.shows[showId].showDateTime && "" !in seats2.value
    requires forall s :: s in seats2.value ==> s !in seats1.value && s !in LedgerOf(st.shows[showId])
    ensures CreateBooking(CreateBooking(st, u1, showId, seats1, now, id1).store,
                          u2, showId, seats2, now2, id2).reply.Created?
  {
    var st' := CreateBooking(st, u1, showId, seats1, now, id1).store;
    forall s | s in seats2.value ensures s !in LedgerOf(st'.shows[showId]) {
      assert s !in (set i | 0 <= i < |seats1.value| :: seats1.value[i]);
    }
  }

  /** Duplicates are not rejected: they count toward the amount but leave one
      ledger entry. The seat id's format is not checked either. */
  lemma DuplicateSeatsChargedTwice()
    ensures var st := Store(map["s1" := Show("m1", 1000, 150, Some(map[]))], []);
            var r := CreateBooking(st, "u1", "s1", Some(["Z99", "Z99"]), 0, "b1");
            && r.reply == Created("/my-bookings?bookingId=b1", "b1")
            && r.store.bookings[0].amount == 300
            && GetOccupiedSeats(r.store, "s1") == Ok({"Z99"})
  {
    var st := Store(map["s1" := Show("m1", 1000, 150, Some(map[]))], []);
    var seats := ["Z99", "Z99"];
    var r := CreateBooking(st, "u1", "s1", Some(seats), 0, "b1");
    assert TakenSeats(seats, map[]) == [];
    assert Bookable(st, "s1", Some(seats), 0);
    assert r.reply.Created?;
    assert r.store.bookings[0].amount == 300;
    assert (set i | 0 <= i < |seats| :: seats[i]) == {"Z99"};
    assert LedgerOf(r.store.shows["s1"]).Keys == {"Z99"};
  }

  /** Price 200, empty ledger: U books B1 and B2 for 400; V's request for B2
      and B3 is then refused naming B2 alone. */
  lemma TwoCustomersScenario()
    ensures var st := Store(map["s" := Show("m", 10, 200, Some(map[]))], []);
            var r1 := CreateBooking(st, "U", "s", Some(["B1", "B2"]), 0, "b1");
            var r2 := CreateBooking(r1.store, "V", "s", Some(["B2", "B3"]), 0, "b2");
            && r1.reply.Created?
            && r1.store.bookings == [Booking("b1", "U", "s", 400, ["B1", "B2"], false, None)]
            && r1.store.shows["s"].occupiedSeats == Some(map["B1" := "U", "B2" := "U"])
            && r2.reply == Rejected(SeatsTaken(["B2"]))
            && r2.store == r1.store
  {
    FirstCustomerBooks();
    var st := Store(map["s" := Show("m", 10, 200, Some(map[]))], []);
    var r1 := CreateBooking(st, "U", "s", Some(["B1", "B2"]), 0, "b1");
    SecondRequestSeesB2(r1.store.shows["s"].occupiedSeats.value);
  }

  lemma FirstCustomerBooks()
    ensures var st := Store(map["s" := Show("m", 10, 200, Some(map[]))], []);
            var r1 := CreateBooking(st, "U", "s", Some(["B1", "B2"]), 0, "b1");
            && r1.reply.Created?
            && r1.store.bookings == [Booking("b1", "U", "s", 400, ["B1", "B2"], false, None)]
            && r1.store.shows.Keys == {"s"}
            && r1.store.shows["s"].showDateTime == 10 && r1.store.shows["s"].showPrice == 200
            && r1.store.shows["s"].occupiedSeats == Some(map["B1" := "U", "B2" := "U"])
  {
    var st := Store(map["s" := Show("m", 10, 200, Some(map[]))], []);
    assert TakenSeats(["B1", "B2"], map[]) == [];
    var r1 := CreateBooking(st, "U", "s", Some(["B1", "B2"]), 0, "b1");
    var ledger := r1.store.shows["s"].occupiedSeats.value;
    assert ledger.Keys == {"B1", "B2"} by {
      var seats := ["B1", "B2"];
      assert (set i | 0 <= i < |seats| :: seats[i]) == {"B1", "B2"};
    }
    assert ledger == map["B1" := "U", "B2" := "U"];
  }

  lemma SecondRequestSeesB2(ledger: Ledger)
    requires "B2" in ledger && "B3" !in ledger
    ensures TakenSeats(["B2", "B3"], ledger) == ["B2"]
  {
  }
}

=== FILE: route_guards.dfy ===
/** The two client route guards, as decisions from the auth state to what the
    route renders. */
module RouteGuards {
  import opened Wrappers

  /** The signed-in user as the auth context holds it. */
  datatype AuthUser = AuthUser(role: string)

  /** What a guarded route renders. */
  datatype Guard = Loading | Redirect(path: string) | Children

  /** `PrivateRoutes`: wait while loading, send the signed-out to the login page. */
  function PrivateRoute(loading: bool, user: Option<AuthUser>): (r: Guard)
    ensures loading ==> r == Loading
    ensures !loading && user.None? ==> r == Redirect("/login")
    ensures r == Children <==> !loading && user.Some?
  {
    if loading then Loading
    else if user.None? then Redirect("/login")
    else Children
  }

  /** `RoleBasedRoutes`: as above, and a signed-in user whose role is not listed
      goes to their own home page instead. */
  function RoleBasedRoute(loading: bool, user: Option<AuthUser>, requiredRole: seq<string>): (r: Guard)
    ensures loading ==> r == Loading
    ensures !loading && user.None? ==> r == Redirect("/login")
    ensures r == Children <==> !loading && user.Some? && user.value.role in requiredRole
    ensures !loading && user.Some? && user.value.role !in requiredRole ==>
              r == Redirect(if user.value.role == "admin" then "/admin" else "/home")
  {
    if loading then Loading
    else if user.None? then Redirect("/login")
    else if user.value.role !in requiredRole then
      Redirect(if user.value.role == "admin" then "/admin" else "/home")
    else Children
  }

  /** The role guard is the auth guard narrowed by role: it lets through only
      what the auth guard lets through, and agrees with it everywhere except on
      a signed-in user whose role is not listed. */
  lemma RoleGuardRefinesAuthGuard(loading: bool, user: Option<AuthUser>, requiredRole: seq<string>)
    ensures RoleBasedRoute(loading, user, requiredRole) == Children ==> PrivateRoute(loading, user) == Children
    ensures (loading || user.None? || user.value.role in requiredRole) ==>
              RoleBasedRoute(loading, user, requiredRole) == PrivateRoute(loading, user)
  {
  }
}

=== FILE: schemas.dfy ===
/** The three document schemas of the core: users, shows and bookings.
    Each `Validate*` function models what saving a document does with the fields
    it is given: required paths, enum paths and defaults. Identifiers are
    strings; time is an integer timestamp; prices and amounts are integers. */
module Schemas {
  import opened Wrappers

  type UserId = string
  type ShowId = string
  type MovieId = string
  type SeatId = string
  type BookingId = string

  /** A show's seat ledger: seat id to the id of the user holding it; a seat
      with no entry is free. */
  type Ledger = map<SeatId, UserId>

  datatype Role = UserRole | AdminRole

  /** The role as stored: the enum strings of the user schema. */
  function RoleName(r: Role): string {
    match r
    case UserRole => "user"
    case AdminRole => "admin"
  }

  /** The enum check of the role path: only the exact strings are accepted. */
  function ParseRole(s: string): (r: Option<Role>)
    ensures r.Some? <==> s == "user" || s == "admin"
    ensures r.Some? ==> RoleName(r.value) == s
  {
    if s == "user" then Some(UserRole)
    else if s == "admin" then Some(AdminRole)
    else None
  }

  lemma RoleRoundTrip(r: Role)
    ensures ParseRole(RoleName(r)) == Some(r)
  {
  }

  datatype User = User(
    id: UserId,
    name: Option<string>,
    email: Option<string>,
    password: Option<string>,
    role: Role,
    favorites: Option<seq<MovieId>>)

  /** One screening: movie id, start time, ticket price and (possibly absent,
      in documents written before the default existed) seat ledger. */
  datatype Show = Show(
    movie: MovieId,
    showDateTime: int,
    showPrice: int,
    occupiedSeats: Option<Ledger>)

  /** A show document as a query returns it, with its id. */
  datatype StoredShow = StoredShow(id: ShowId, show: Show)

  datatype Booking = Booking(
    id: BookingId,
    user: UserId,
    show: ShowId,
    amount: int,
    bookedSeats: seq<SeatId>,
    isPaid: bool,
    paymentLink: Option<string>)

  /** The fields handed to a save; `None` is a path left unset. */
  datatype UserFields = UserFields(
    name: Option<string>,
    email: Option<string>,
    password: Option<string>,
    role: Option<string>,
    favorites: Option<seq<MovieId>>)

  datatype ShowFields = ShowFields(
    movie: Option<MovieId>,
    showDateTime: Option<int>,
    showPrice: Option<int>,
    occupiedSeats: Option<Ledger>)

  datatype BookingFields = BookingFields(
    user: Option<UserId>,
    show: Option<ShowId>,
    amount: Option<int>,
    bookedSeats: seq<SeatId>,
    isPaid: Option<bool>,
    paymentLink: Option<string>)

  /** A validation failure names every path that failed, in schema order. */
  datatype SchemaError = Invalid(paths: seq<string>)

  /** A required string path fails when unset or empty. */
  predicate MissingString(v: Option<string>) {
    v.None? || v.value == ""
  }

  function Flag(failed: bool, path: string): seq<string> {
    if failed then [path] else []
  }

  function ValidateUser(id: UserId, f: UserFields): (r: Result<User, SchemaError>)
    ensures r.Ok? <==> f.role.Some? && ParseRole(f.role.value).Some?
    ensures r.Err? ==> r.error == Invalid(["role"])
    ensures r.Ok? ==> RoleName(r.value.role) == f.role.value
    ensures r.Ok? ==> (r.value.name == f.name && r.value.email == f.email &&
                       r.value.password == f.password)
    // the array path defaults to an empty list when left unset
    ensures r.Ok? ==> r.value.favorites == Some(f.favorites.GetOr([]))
  {
    if f.role.None? then Err(Invalid(["role"]))
    else match ParseRole(f.role.value)
      case None => Err(Invalid(["role"]))
      case Some(role) => Ok(User(id, f.name, f.email, f.password, role, Some(f.favorites.GetOr([]))))
  }

  function ValidateShow(f: ShowFields): (r: Result<Show, SchemaError>)
    ensures r.Ok? <==> !MissingString(f.movie) && f.showDateTime.Some? && f.showPrice.Some?
    ensures r.Err? ==> |r.error.paths| > 0
    ensures r.Ok? ==> (r.value.movie == f.movie.value &&
                       r.value.showDateTime == f.showDateTime.value &&
                       r.value.showPrice == f.showPrice.value)
    // a given ledger is stored as is; an unset one defaults to the empty ledger
    ensures r.Ok? ==> r.value.occupiedSeats == Some(f.occupiedSeats.GetOr(map[]))
  {
    var failed := Flag(MissingString(f.movie), "movie")
      + Flag(f.showDateTime.None?, "showDateTime")
      + Flag(f.showPrice.None?, "showPrice");
    if failed != [] then Err(Invalid(failed))
    else Ok(Show(f.movie.value, f.showDateTime.value, f.showPrice.value,
                 Some(f.occupiedSeats.GetOr(map[]))))
  }

  function ValidateBooking(id: BookingId, f: BookingFields): (r: Result<Booking, SchemaError>)
    ensures r.Ok? <==> (f.user.Some? && f.show.Some? && f.amount.Some? &&
                        forall i :: 0 <= i < |f.bookedSeats| ==> f.bookedSeats[i] != "")
    ensures r.Err? ==> |r.error.paths| > 0
    ensures r.Ok? ==> (r.value.user == f.user.value && r.value.show == f.show.value &&
                       r.value.amount == f.amount.value && r.value.bookedSeats == f.bookedSeats &&
                       r.value.paymentLink == f.paymentLink && r.value.id == id)
    // with the required paths set, an empty seat id is the only failure
    ensures (f.user.Some? && f.show.Some? && f.amount.Some? && "" in f.bookedSeats) ==>
              r == Err(Invalid(["bookedSeats"]))
    // a given flag is kept; an unset one defaults to unpaid
    ensures r.Ok? ==> r.value.isPaid == f.isPaid.GetOr(false)
  {
    var failed := Flag(f.user.None?, "user")
      + Flag(f.show.None?, "show")
      + Flag(f.amount.None?, "amount")
      + Flag("" in f.bookedSeats, "bookedSeats");
    assert f.user.Some? && f.show.Some? && f.amount.Some? ==> failed == Flag("" in f.bookedSeats, "bookedSeats");
    if failed != [] then Err(Invalid(failed))
    else Ok(Booking(id, f.user.value, f.show.value, f.amount.value, f.bookedSeats,
                    f.isPaid.GetOr(false), f.paymentLink))
  }

  /** The user schema does not deduplicate a favorites list, and its role enum
      is case-sensitive. (The schema declares no unique email either; the
      registration handler rejects a repeated email itself, which is not part of
      this model.) */
  lemma UserSchemaHasNoUniqueness()
    ensures ValidateUser("u1", UserFields(Some("A"), Some("a@x"), None, Some("user"), Some(["m", "m"]))).Ok?
    ensures ValidateUser("u3", UserFields(None, None, None, Some("Admin"), None)).Err?
  {
  }

  /** The fields a stored user was saved from. */
  function UserFieldsOf(u: User): UserFields {
    UserFields(u.name, u.email, u.password, Some(RoleName(u.role)), u.favorites)
  }

  /** Round trip: a stored user with a favorites list validates back to itself
      from its own fields; one without gets the empty list and nothing else
      changes. */
  lemma UserSchemaRoundTrip(u: User)
    ensures u.favorites.Some? ==> ValidateUser(u.id, UserFieldsOf(u)) == Ok(u)
    ensures u.favorites.None? ==> ValidateUser(u.id, UserFieldsOf(u)) == Ok(u.(favorites := Some([])))
  {
    RoleRoundTrip(u.role);
  }

  /** The fields a stored booking was saved from. */
  function FieldsOf(b: Booking): BookingFields {
    BookingFields(Some(b.user), Some(b.show), Some(b.amount), b.bookedSeats, Some(b.isPaid), b.paymentLink)
  }

  /** Round trip: a booking whose seat ids are non-empty validates back to
      itself from its own fields, and one with an empty seat id never does. */
  lemma BookingSchemaRoundTrip(b: Booking)
    ensures "" !in b.bookedSeats ==> ValidateBooking(b.id, FieldsOf(b)) == Ok(b)
    ensures "" in b.bookedSeats ==> ValidateBooking(b.id, FieldsOf(b)) == Err(Invalid(["bookedSeats"]))
  {
  }
}

=== FILE: seat_layout.dfy ===
/** The seat-selection page: the click state machine over the selection, the
    seat grid, the displayed total and the checkout request with its redirect. */
module SeatLayout {
  import opened Wrappers
  import opened Seqs
  import opened Schemas
  import ShowController
  import BookingController

  /** The most seats the page lets one select. */
  const MaxSelection := 5

  /** The price shown when the loaded show carries none. */
  const DefaultPrice := 150

  /** Seats rendered per row. */
  const SeatsPerRow := 9

  /** The rows, in the groups the page lays them out in. */
  const GroupRows: seq<seq<char>> := [['A', 'B'], ['C', 'D'], ['E', 'F'], ['G', 'H'], ['I', 'J']]

  /** The page state the click handler reads and writes. */
  datatype Picker = Picker(
    selectedTime: Option<ShowController.Slot>,
    selected: seq<SeatId>,
    occupied: seq<SeatId>)

  /** The toast a click raises, or `Toggled` when the selection changed. */
  datatype ClickNotice = Toggled | NeedTime | TooMany | AlreadyBooked

  datatype ClickResult = ClickResult(picker: Picker, notice: ClickNotice)

  /** `handleSeatClick`: time first, then the 5-seat limit (for a seat not
      yet selected), then occupancy; otherwise toggle the seat. */
  function HandleSeatClick(p: Picker, seat: SeatId): (r: ClickResult)
    ensures r.picker.selectedTime == p.selectedTime && r.picker.occupied == p.occupied
    ensures r.notice != Toggled ==> r.picker == p
    ensures r.notice == NeedTime <==> p.selectedTime.None?
    // the limit is tested before occupancy
    ensures r.notice == TooMany <==> p.selectedTime.Some? && seat !in p.selected && |p.selected| >= MaxSelection
    ensures r.notice == Toggled <==>
              p.selectedTime.Some? && (seat in p.selected || |p.selected| < MaxSelection) && seat !in p.occupied
    ensures seat in p.occupied ==> r.picker.selected == p.selected
    ensures forall s :: s in r.picker.selected && s !in p.selected ==> s == seat && s !in p.occupied
    ensures r.notice == Toggled && seat in p.selected ==> r.picker.selected == RemoveAll(p.selected, seat)
    ensures r.notice == Toggled ==> forall s :: s != seat ==> (s in r.picker.selected <==> s in p.selected)
    ensures r.notice == Toggled && seat in p.selected ==> seat !in r.picker.selected
    ensures r.notice == Toggled && seat !in p.selected ==> r.picker.selected == p.selected + [seat]
    ensures |p.selected| <= MaxSelection ==> |r.picker.selected| <= MaxSelection
  {
    if p.selectedTime.None? then ClickResult(p, NeedTime)
    else if seat !in p.selected && |p.selected| >= MaxSelection then ClickResult(p, TooMany)
    else if seat in p.occupied then ClickResult(p, AlreadyBooked)
    else ClickResult(p.(selected := Toggle(p.selected, seat)), Toggled)
  }

  /** What the page keeps true of its selection. */
  predicate SelectionInvariant(selected: seq<SeatId>) {
    NoDuplicates(selected) && |selected| <= MaxSelection
  }

  /** Every click keeps the selection duplicate-free and within the limit. */
  lemma ClickPreservesInvariant(p: Picker, seat: SeatId)
    requires SelectionInvariant(p.selected)
    ensures SelectionInvariant(HandleSeatClick(p, seat).picker.selected)
  {
    TogglePreservesNoDuplicates(p.selected, seat);
  }

  /** The invariant holds after any sequence of clicks from the empty selection. */
  function ClickAll(p: Picker, seats: seq<SeatId>): Picker
    decreases |seats|
  {
    if |seats| == 0 then p else ClickAll(HandleSeatClick(p, seats[0]).picker, seats[1..])
  }

  lemma {:induction false} ClicksPreserveInvariant(p: Picker, seats: seq<SeatId>)
    requires SelectionInvariant(p.selected)
    ensures SelectionInvariant(ClickAll(p, seats).selected)
    ensures forall s :: s in ClickAll(p, seats).selected ==> s in p.selected || s in seats
    decreases |seats|
  {
    if |seats| > 0 {
      ClickPreservesInvariant(p, seats[0]);
      ClicksPreserveInvariant(HandleSeatClick(p, seats[0]).picker, seats[1..]);
    }
  }

  // ---- the seat grid ----

  function DigitChar(d: nat): char
    requires d < 10
  {
    ('0' as int + d) as char
  }

  function DigitValue(c: char): nat {
    if '0' <= c <= '9' then c as int - '0' as int else 0
  }

  /** Decimal rendering of a number (the `${i + 1}` of the seat label). */
  function NatToString(n: nat): (r: string)
    ensures |r| > 0
    ensures forall k :: 0 <= k < |r| ==> '0' <= r[k] <= '9'
    ensures n < 10 ==> r == [DigitChar(n)]
  {
    if n < 10 then [DigitChar(n)] else NatToString(n / 10) + [DigitChar(n % 10)]
  }

  /** Decimal reading, the inverse of `NatToString`. */
  function ParseNat(s: string): nat {
    if |s| == 0 then 0 else ParseNat(s[..|s| - 1]) * 10 + DigitValue(s[|s| - 1])
  }

  lemma {:induction false} NatToStringRoundTrip(n: nat)
    ensures ParseNat(NatToString(n)) == n
  {
    if n >= 10 {
      var s := NatToString(n);
      NatToStringRoundTrip(n / 10);
      assert s[..|s| - 1] == NatToString(n / 10);
    }
  }

  /** A seat's label: row letter then seat number. */
  function SeatLabel(row: char, n: nat): SeatId {
    [row] + NatToString(n)
  }

  lemma SeatLabelInjective(r1: char, n1: nat, r2: char, n2: nat)
    requires SeatLabel(r1, n1) == SeatLabel(r2, n2)
    ensures r1 == r2 && n1 == n2
  {
    assert SeatLabel(r1, n1)[0] == r1;
    assert SeatLabel(r1, n1)[1..] == NatToString(n1);
    assert SeatLabel(r2, n2)[1..] == NatToString(n2);
    NatToStringRoundTrip(n1);
    NatToStringRoundTrip(n2);
  }

  /** `renderSeats(row, count)`: the labels of one row, seats 1 to `count`. */
  function RowSeats(row: char, count: nat): (r: seq<SeatId>)
    ensures |r| == count
    ensures forall i :: 0 <= i < count ==> r[i] == SeatLabel(row, i + 1)
  {
    seq(count, i requires 0 <= i < count => SeatLabel(row, i + 1))
  }

  function Flatten(groups: seq<seq<char>>): seq<char> {
    if |groups| == 0 then [] else groups[0] + Flatten(groups[1..])
  }

  function ConcatRows(rows: seq<char>, count: nat): seq<SeatId> {
    if |rows| == 0 then [] else RowSeats(rows[0], count) + ConcatRows(rows[1..], count)
  }

  /** Every label the page renders, in render order. */
  function Grid(): seq<SeatId> {
    ConcatRows(Flatten(GroupRows), SeatsPerRow)
  }

  lemma RowLetters()
    ensures Flatten(GroupRows) == seq(10, i requires 0 <= i < 10 => ('A' as int + i) as char)
  {
    assert Flatten(GroupRows[4..]) == ['I', 'J'];
    assert Flatten(GroupRows[3..]) == ['G', 'H', 'I', 'J'];
    assert Flatten(GroupRows[2..]) == ['E', 'F', 'G', 'H', 'I', 'J'];
    assert Flatten(GroupRows[1..]) == ['C', 'D', 'E', 'F', 'G', 'H', 'I', 'J'];
  }

  lemma {:induction false} ConcatRowsLength(rows: seq<char>, count: nat)
    ensures |ConcatRows(rows, count)| == |rows| * count
  {
    if |rows| > 0 {
      ConcatRowsLength(rows[1..], count);
      assert |rows| * count == count + (|rows| - 1) * count;
    }
  }

  predicate InRows(id: SeatId, rows: seq<char>, count: nat) {
    exists k, n :: 0 <= k < |rows| && 1 <= n <= count && id == SeatLabel(rows[k], n)
  }

  lemma {:induction false} ConcatRowsMembership(rows: seq<char>, count: nat, id: SeatId)
    ensures id in ConcatRows(rows, count) <==> InRows(id, rows, count)
  {
    if |rows| > 0 {
      var head := RowSeats(rows[0], count);
      var tail := ConcatRows(rows[1..], count);
      ConcatRowsMembership(rows[1..], count, id);
      if InRows(id, rows, count) {
        var k, n :| 0 <= k < |rows| && 1 <= n <= count && id == SeatLabel(rows[k], n);
        if k == 0 {
          assert id == head[n - 1];
        } else {
          assert rows[k] == rows[1..][k - 1];
          assert InRows(id, rows[1..], count);
        }
      }
      if id in head {
        var i :| 0 <= i < count && head[i] == id;
        assert id == SeatLabel(rows[0], i + 1);
      }
      if id in tail {
        var k, n :| 0 <= k < |rows[1..]| && 1 <= n <= count && id == SeatLabel(rows[1..][k], n);
        assert id == SeatLabel(rows[k + 1], n);
      }
    }
  }

  lemma {:induction false} ConcatRowsNoDuplicates(rows: seq<char>, count: nat)
    requires NoDuplicates(rows)
    ensures NoDuplicates(ConcatRows(rows, count))
  {
    if |rows| > 0 {
      var head := RowSeats(rows[0], count);
      var tail := ConcatRows(rows[1..], count);
      ConcatRowsNoDuplicates(rows[1..], count);
      forall i, j | 0 <= i < j < count ensures head[i] != head[j] {
        if head[i] == head[j] {
          SeatLabelInjective(rows[0], i + 1, rows[0], j + 1);
        }
      }
      forall id | id in head ensures id !in tail {
        ConcatRowsMembership(rows[1..], count, id);
        if id in tail {
          var i :| 0 <= i < count && head[i] == id;
          var k, n :| 0 <= k < |rows[1..]| && 1 <= n <= count && id == SeatLabel(rows[1..][k], n);
          SeatLabelInjective(rows[0], i + 1, rows[1..][k], n);
        }
      }
      NoDuplicatesConcat(head, tail);
    }
  }

  /** The grid holds 90 distinct labels, and a label is in it exactly when it
      is a letter A to J followed by one digit 1 to 9. */
  lemma GridShape()
    ensures |Grid()| == 90
    ensures NoDuplicates(Grid())
    ensures forall id :: id in Grid() <==> |id| == 2 && 'A' <= id[0] <= 'J' && '1' <= id[1] <= '9'
  {
    var rows := Flatten(GroupRows);
    RowLetters();
    ConcatRowsLength(rows, SeatsPerRow);
    ConcatRowsNoDuplicates(rows, SeatsPerRow);
    forall id ensures id in Grid() <==> |id| == 2 && 'A' <= id[0] <= 'J' && '1' <= id[1] <= '9' {
      ConcatRowsMembership(rows, SeatsPerRow, id);
      if id in Grid() {
        var k, n :| 0 <= k < |rows| && 1 <= n <= SeatsPerRow && id == SeatLabel(rows[k], n);
        assert NatToString(n) == [DigitChar(n)];
      }
      if |id| == 2 && 'A' <= id[0] <= 'J' && '1' <= id[1] <= '9' {
        var k := id[0] as int - 'A' as int;
        var n := id[1] as int - '0' as int;
        assert rows[k] == id[0];
        assert NatToString(n) == [id[1]];
        assert id == SeatLabel(rows[k], n);
      }
    }
  }

  // ---- totals and checkout ----

  /** `data.showPrice || 150`: the price the page keeps for the loaded show. */
  function ClientShowPrice(replyPrice: Option<int>): (r: int)
    ensures r != 0
    ensures replyPrice.Some? && replyPrice.value != 0 ==> r == replyPrice.value
    ensures replyPrice.None? || replyPrice.value == 0 ==> r == DefaultPrice
  {
    if replyPrice.None? || replyPrice.value == 0 then DefaultPrice else replyPrice.value
  }

  /** The total the page shows, as written: the showtimes reply carries no
      price field, so the page always multiplies by the default. */
  function DisplayedTotal(selected: seq<SeatId>): (r: int)
    ensures r == CorrectedDisplayedTotal(selected, DefaultPrice)
  {
    |selected| * ClientShowPrice(None)
  }

  /** The displayed total disagrees with the server's charge for every
      non-empty selection on a show whose price is not 150. */
  lemma DisplayedTotalIgnoresShowPrice(st: BookingController.Store, user: UserId, showId: ShowId,
                                       seats: seq<SeatId>, now: int, id: BookingId)
    requires BookingController.Bookable(st, showId, Some(seats), now)
    requires st.shows[showId].showPrice != DefaultPrice
    ensures var charged := BookingController.CreateBooking(st, user, showId, Some(seats), now, id).store.bookings;
            charged[|charged| - 1].amount != DisplayedTotal(seats)
  {
    var r := BookingController.CreateBooking(st, user, showId, Some(seats), now, id);
    var price := st.shows[showId].showPrice;
    assert r.store.bookings[|r.store.bookings| - 1].amount == price * |seats|;
    ProductsDiffer(price, DefaultPrice, |seats|);
  }

  /** Distinct prices give distinct totals for a non-empty selection. */
  lemma ProductsDiffer(a: int, b: int, n: int)
    requires a != b && n > 0
    ensures a * n != b * n
  {
    if a < b {
      assert a * n < b * n;
    } else {
      assert a * n > b * n;
    }
  }

  /** The total the page should show: the selected show's own price. */
  function CorrectedDisplayedTotal(selected: seq<SeatId>, showPrice: int): int {
    |selected| * showPrice
  }

  /** With the show's price, the page total is exactly what the server charges. */
  lemma CorrectedTotalMatchesCharge(st: BookingController.Store, user: UserId, showId: ShowId,
                                    seats: seq<SeatId>, now: int, id: BookingId)
    requires BookingController.Bookable(st, showId, Some(seats), now)
    ensures var charged := BookingController.CreateBooking(st, user, showId, Some(seats), now, id).store.bookings;
            charged[|charged| - 1].amount == CorrectedDisplayedTotal(seats, st.shows[showId].showPrice)
  {
    var r := BookingController.CreateBooking(st, user, showId, Some(seats), now, id);
    assert r.store.bookings[|r.store.bookings| - 1].amount == st.shows[showId].showPrice * |seats|;
  }

  datatype BookAction = NeedLogin | NeedTimeAndSeat | Post(showId: ShowId, seats: seq<SeatId>)

  /** `bookTickets`'s pre-checks: no request without a user, a show id and a seat. */
  function BookTickets(loggedIn: bool, p: Picker): (r: BookAction)
    ensures !loggedIn ==> r == NeedLogin
    ensures loggedIn && !r.Post? ==> r == NeedTimeAndSeat
    ensures r.Post? <==>
              loggedIn && p.selectedTime.Some? && p.selectedTime.value.showId != "" && |p.selected| > 0
    ensures r.Post? ==> r.showId == p.selectedTime.value.showId && r.seats == p.selected
  {
    if !loggedIn then NeedLogin
    else if p.selectedTime.None? || p.selectedTime.value.showId == "" || |p.selected| == 0 then NeedTimeAndSeat
    else Post(p.selectedTime.value.showId, p.selected)
  }

  /** A request the page sends always passes the server's seat-count check,
      and it never repeats a seat. */
  lemma PostedSelectionPassesSeatCount(loggedIn: bool, p: Picker)
    requires SelectionInvariant(p.selected)
    requires BookTickets(loggedIn, p).Post?
    ensures BookingController.SeatCountOk(Some(BookTickets(loggedIn, p).seats))
    ensures NoDuplicates(BookTickets(loggedIn, p).seats)
  {
  }

  datatype Navigation = InApp(path: string) | FullRedirect(url: string)

  /** A returned URL starting with '/' is navigated in the app; any other is
      a full page redirect. */
  function FollowBookingUrl(url: string): (r: Navigation)
    ensures r.InApp? <==> |url| > 0 && url[0] == '/'
    ensures r == InApp(url) || r == FullRedirect(url)
  {
    if |url| > 0 && url[0] == '/' then InApp(url) else FullRedirect(url)
  }

  /** Without a payment provider, a successful booking lands in the app on the
      booking's page. */
  lemma CreatedBookingNavigatesInApp(st: BookingController.Store, user: UserId, showId: ShowId,
                                     seats: Option<seq<SeatId>>, now: int, id: BookingId)
    requires BookingController.Bookable(st, showId, seats, now)
    ensures var url := BookingController.CreateBooking(st, user, showId, seats, now, id).reply.url;
            FollowBookingUrl(url) == InApp(url)
  {
  }
}

=== FILE: seqs.dfy ===
/** Sequence helpers: occurrence counting, order-preserving filtering and the
    membership toggle used both for favorites and for the seat selection. */
module Seqs {

  /** Number of occurrences of `x` in `s`. */
  function Count<T(==)>(s: seq<T>, x: T): nat
  {
    if |s| == 0 then 0 else (if s[0] == x then 1 else 0) + Count(s[1..], x)
  }

  predicate NoDuplicates<T(==)>(s: seq<T>) {
    forall i, j :: 0 <= i < j < |s| ==> s[i] != s[j]
  }

  /** `a` can be obtained from `b` by deleting elements: order is kept. */
  ghost predicate IsSubsequence<T>(a: seq<T>, b: seq<T>)
    decreases |b|
  {
    if |a| == 0 then true
    else if |b| == 0 then false
    else (a[0] == b[0] && IsSubsequence(a[1..], b[1..])) || IsSubsequence(a, b[1..])
  }

  /** JavaScript's `Array.prototype.filter`: the elements satisfying `p`, in order. */
  function Filter<T(==,!new)>(s: seq<T>, p: T -> bool): (r: seq<T>)
    ensures |r| <= |s|
    ensures forall x :: x in r <==> x in s && p(x)
  {
    if |s| == 0 then []
    else (if p(s[0]) then [s[0]] else []) + Filter(s[1..], p)
  }

  /** Removes every occurrence of `x` (`s.filter(y => y !== x)`). */
  function RemoveAll<T(==,!new)>(s: seq<T>, x: T): (r: seq<T>)
    ensures x !in r
    ensures forall y :: y != x ==> (y in r <==> y in s)
  {
    Filter(s, y => y != x)
  }

  /** Membership toggle: append `x` when absent, remove all its occurrences when present. */
  function Toggle<T(==,!new)>(s: seq<T>, x: T): (r: seq<T>)
    ensures x in r <==> x !in s
    ensures forall y :: y != x ==> (y in r <==> y in s)
    ensures x !in s ==> |r| == |s| + 1 && r[..|s|] == s && r[|s|] == x
  {
    if x in s then RemoveAll(s, x) else s + [x]
  }

  lemma {:induction false} CountAppend<T>(a: seq<T>, b: seq<T>, x: T)
    ensures Count(a + b, x) == Count(a, x) + Count(b, x)
  {
    if |a| > 0 {
      assert (a + b)[1..] == a[1..] + b;
      CountAppend(a[1..], b, x);
    } else {
      assert a + b == b;
    }
  }

  lemma {:induction false} CountMembership<T>(s: seq<T>, x: T)
    ensures Count(s, x) > 0 <==> x in s
  {
    if |s| > 0 {
      CountMembership(s[1..], x);
      assert x in s <==> s[0] == x || x in s[1..];
    }
  }

  /** Filtering keeps every occurrence of a selected element and none of the others. */
  lemma {:induction false} FilterCount<T(!new)>(s: seq<T>, p: T -> bool, x: T)
    ensures Count(Filter(s, p), x) == if p(x) then Count(s, x) else 0
  {
    if |s| > 0 {
      var head: seq<T> := if p(s[0]) then [s[0]] else [];
      FilterCount(s[1..], p, x);
      CountAppend(head, Filter(s[1..], p), x);
    }
  }

  /** Filtering keeps the relative order of the kept elements. */
  lemma {:induction false} FilterIsSubsequence<T(!new)>(s: seq<T>, p: T -> bool)
    ensures IsSubsequence(Filter(s, p), s)
  {
    if |s| > 0 {
      FilterIsSubsequence(s[1..], p);
      var rest := Filter(s[1..], p);
      if p(s[0]) {
        assert Filter(s, p) == [s[0]] + rest;
        assert ([s[0]] + rest)[1..] == rest;
      } else {
        assert Filter(s, p) == rest;
      }
    }
  }

  lemma {:induction false} FilterAppend<T(!new)>(a: seq<T>, b: seq<T>, p: T -> bool)
    ensures Filter(a + b, p) == Filter(a, p) + Filter(b, p)
  {
    if |a| == 0 {
      assert a + b == b;
    } else {
      assert (a + b)[1..] == a[1..] + b;
      FilterAppend(a[1..], b, p);
    }
  }

  /** A filter that every element passes changes nothing. */
  lemma {:induction false} FilterKeepsAll<T(!new)>(s: seq<T>, p: T -> bool)
    requires forall i :: 0 <= i < |s| ==> p(s[i])
    ensures Filter(s, p) == s
  {
    if |s| > 0 {
      FilterKeepsAll(s[1..], p);
      assert [s[0]] + s[1..] == s;
    }
  }

  /** A filter that no element passes leaves nothing. */
  lemma {:induction false} FilterKeepsNone<T(!new)>(s: seq<T>, p: T -> bool)
    requires forall i :: 0 <= i < |s| ==> !p(s[i])
    ensures Filter(s, p) == []
  {
    if |s| > 0 {
      FilterKeepsNone(s[1..], p);
    }
  }

  /** Concatenating two duplicate-free, disjoint sequences keeps it duplicate-free. */
  lemma NoDuplicatesConcat<T>(a: seq<T>, b: seq<T>)
    requires NoDuplicates(a) && NoDuplicates(b)
    requires forall x :: x in a ==> x !in b
    ensures NoDuplicates(a + b)
  {
    var c := a + b;
    forall i, j | 0 <= i < j < |c| ensures c[i] != c[j] {
      if i < |a| && j >= |a| {
        assert c[i] in a && c[j] == b[j - |a|];
      } else if i >= |a| {
        assert c[i] == b[i - |a|] && c[j] == b[j - |a|];
      }
    }
  }

  lemma {:induction false} NoDuplicatesByCount<T>(s: seq<T>)
    ensures NoDuplicates(s) <==> forall x :: Count(s, x) <= 1
  {
    if |s| > 0 {
      NoDuplicatesByCount(s[1..]);
      CountMembership(s[1..], s[0]);
      if NoDuplicates(s) {
        assert NoDuplicates(s[1..]);
        assert s[0] !in s[1..];
        forall x ensures Count(s, x) <= 1 {
          assert Count(s, x) == (if s[0] == x then 1 else 0) + Count(s[1..], x);
          if x == s[0] {
            assert Count(s[1..], x) == 0;
          } else {
            assert Count(s[1..], x) <= 1;
          }
        }
      } else {
        var i, j :| 0 <= i < j < |s| && s[i] == s[j];
        if i == 0 {
          assert s[j] == s[1..][j - 1];
          assert Count(s, s[0]) >= 2;
        } else {
          assert s[1..][i - 1] == s[1..][j - 1];
          assert !NoDuplicates(s[1..]);
          var y :| Count(s[1..], y) > 1;
          assert Count(s, y) > 1;
        }
      }
    }
  }

  /** When `x` is present, the toggle deletes exactly its occurrences and keeps the
      rest in their original order and multiplicity. */
  lemma ToggleRemovesAll<T(!new)>(s: seq<T>, x: T)
    requires x in s
    ensures IsSubsequence(Toggle(s, x), s)
    ensures Count(Toggle(s, x), x) == 0
    ensures forall y :: y != x ==> Count(Toggle(s, x), y) == Count(s, y)
  {
    var p := (y: T) => y != x;
    FilterIsSubsequence(s, p);
    forall y ensures Count(Toggle(s, x), y) == if y == x then 0 else Count(s, y) {
      FilterCount(s, p, y);
    }
  }

  /** Toggling an absent element twice restores the original sequence. */
  lemma ToggleTwiceRestores<T(!new)>(s: seq<T>, x: T)
    requires x !in s
    ensures Toggle(Toggle(s, x), x) == s
  {
    var p := (y: T) => y != x;
    FilterAppend(s, [x], p);
    FilterKeepsAll(s, p);
  }

  /** The toggle never introduces a duplicate. */
  lemma TogglePreservesNoDuplicates<T(!new)>(s: seq<T>, x: T)
    requires NoDuplicates(s)
    ensures NoDuplicates(Toggle(s, x))
  {
    if x in s {
      NoDuplicatesByCount(s);
      ToggleRemovesAll(s, x);
      forall y ensures Count(Toggle(s, x), y) <= 1 {
        assert Count(s, y) <= 1;
      }
      NoDuplicatesByCount(Toggle(s, x));
    }
  }
}

=== FILE: shows.dfy ===
/** The show controller: `addShow`'s validation and record mapping, and
    `getShow`'s grouping of upcoming showtimes by calendar date. Date parsing
    and formatting are parameters: `parse` reads a date-time string into a
    timestamp, `iso` writes a timestamp as an ISO-8601 string. */
module ShowController {
  import opened Wrappers
  import opened Seqs
  import opened Schemas
  import BookingController

  datatype ShowInput = ShowInput(date: string, time: string)

  datatype AddShowError = MissingFields

  /** One showtime of a date group. */
  datatype Slot = Slot(time: int, showId: ShowId)

  /** The showtimes of one calendar date, in query order. */
  datatype DateGroup = DateGroup(date: string, slots: seq<Slot>)

  /** The date-time string an input entry is parsed from. */
  function DateTimeString(i: ShowInput): string {
    i.date + "T" + i.time
  }

  /** The text before the first 'T' (the whole string when there is none). */
  function DatePart(s: string): (r: string)
    ensures |r| <= |s| && r == s[..|r|]
    ensures 'T' !in r
    ensures |r| < |s| ==> s[|r|] == 'T'
  {
    if |s| == 0 || s[0] == 'T' then ""
    else [s[0]] + DatePart(s[1..])
  }

  /** A date without a 'T' is recovered from the string built from it. */
  lemma {:induction false} DatePartOfDateTime(i: ShowInput)
    requires 'T' !in i.date
    ensures DatePart(DateTimeString(i)) == i.date
  {
    var s := DateTimeString(i);
    var r := DatePart(s);
    assert s[..|i.date|] == i.date && s[|i.date|] == 'T';
  }

  /** A request field JavaScript treats as false: absent, or the empty string. */
  predicate FalsyString(v: Option<string>) {
    v.None? || v.value == ""
  }

  /** `showsToCreate`: one show document per input entry, in input order. */
  function ShowsToCreate(movieId: MovieId, inputs: seq<ShowInput>, showPrice: int, parse: string -> int): (r: seq<Show>)
    ensures |r| == |inputs|
    ensures forall k :: 0 <= k < |r| ==>
              && r[k].movie == movieId
              && r[k].showPrice == showPrice
              && r[k].occupiedSeats == Some(map[])
              && r[k].showDateTime == parse(DateTimeString(inputs[k]))
  {
    seq(|inputs|, k requires 0 <= k < |inputs| =>
      Show(movieId, parse(DateTimeString(inputs[k])), showPrice, Some(map[])))
  }

  /** `addShow` once the movie exists: 400 on a falsy movie id, a missing or
      empty input list, or a falsy price (so a price of 0 is refused);
      otherwise the show documents to insert. */
  function AddShow(movieId: Option<MovieId>, showsInput: Option<seq<ShowInput>>, showPrice: Option<int>,
                   parse: string -> int): (r: Result<seq<Show>, AddShowError>)
    ensures r.Err? <==> (FalsyString(movieId) || showsInput.None? || |showsInput.value| == 0 ||
                         showPrice.None? || showPrice.value == 0)
    ensures r.Ok? ==> r.value == ShowsToCreate(movieId.value, showsInput.value, showPrice.value, parse)
  {
    if FalsyString(movieId) || showsInput.None? || |showsInput.value| == 0 ||
       showPrice.None? || showPrice.value == 0 then Err(MissingFields)
    else Ok(ShowsToCreate(movieId.value, showsInput.value, showPrice.value, parse))
  }

  /** Every show `addShow` builds passes the show schema, ledger included. */
  lemma AddedShowsFitSchema(movieId: Option<MovieId>, showsInput: Option<seq<ShowInput>>,
                            showPrice: Option<int>, parse: string -> int, k: nat)
    requires AddShow(movieId, showsInput, showPrice, parse).Ok?
    requires k < |showsInput.value|
    ensures var s := AddShow(movieId, showsInput, showPrice, parse).value[k];
            ValidateShow(ShowFields(Some(s.movie), Some(s.showDateTime), Some(s.showPrice), s.occupiedSeats)) == Ok(s)
  {
  }

  /** The grouping key of a show: the date part of its ISO timestamp. */
  function DateKey(d: StoredShow, iso: int -> string): string {
    DatePart(iso(d.show.showDateTime))
  }

  function SlotOf(d: StoredShow): Slot {
    Slot(d.show.showDateTime, d.id)
  }

  function Dates(g: seq<DateGroup>): (r: seq<string>)
    ensures |r| == |g| && forall i :: 0 <= i < |g| ==> r[i] == g[i].date
  {
    seq(|g|, i requires 0 <= i < |g| => g[i].date)
  }

  /** The slots listed under `date`; empty when there is no such group. */
  function Lookup(g: seq<DateGroup>, date: string): seq<Slot> {
    if |g| == 0 then []
    else if g[0].date == date then g[0].slots
    else Lookup(g[1..], date)
  }

  function TotalSlots(g: seq<DateGroup>): nat {
    if |g| == 0 then 0 else |g[0].slots| + TotalSlots(g[1..])
  }

  /** One `forEach` step: push onto the date's group, creating it at the end
      when the date has none yet. */
  function AddToGroup(g: seq<DateGroup>, date: string, x: Slot): seq<DateGroup> {
    if |g| == 0 then [DateGroup(date, [x])]
    else if g[0].date == date then [g[0].(slots := g[0].slots + [x])] + g[1..]
    else [g[0]] + AddToGroup(g[1..], date, x)
  }

  /** The grouping loop over the query results, in query order: every show
      lands in exactly one group, and no group is created empty. */
  function GroupByDate(docs: seq<StoredShow>, iso: int -> string): (r: seq<DateGroup>)
    ensures TotalSlots(r) == |docs|
    ensures NoEmptyGroup(r)
  {
    if |docs| == 0 then []
    else
      var last := docs[|docs| - 1];
      var g := GroupByDate(docs[..|docs| - 1], iso);
      AddToGroupTotal(g, DateKey(last, iso), SlotOf(last));
      AddToGroupNonEmpty(g, DateKey(last, iso), SlotOf(last));
      AddToGroup(g, DateKey(last, iso), SlotOf(last))
  }

  /** Reference definition: the slots of the shows whose key is `date`, in order. */
  function SlotsOn(docs: seq<StoredShow>, iso: int -> string, date: string): seq<Slot> {
    if |docs| == 0 then []
    else
      var last := docs[|docs| - 1];
      SlotsOn(docs[..|docs| - 1], iso, date) + (if DateKey(last, iso) == date then [SlotOf(last)] else [])
  }

  /** `getShow`: the upcoming shows of one movie, grouped by date. Each date
      appears once and lists exactly the upcoming shows on it, so every
      upcoming show is listed under its own date. */
  function GetShow(docs: seq<StoredShow>, movieId: MovieId, now: int, iso: int -> string): (r: seq<DateGroup>)
    ensures NoDuplicates(Dates(r))
    ensures NoEmptyGroup(r)
    ensures forall date :: date in Dates(r) <==> HasDate(Upcoming(docs, movieId, now), iso, date)
    ensures forall date :: Lookup(r, date) == SlotsOn(Upcoming(docs, movieId, now), iso, date)
    ensures forall d :: d in docs && d.show.movie == movieId && d.show.showDateTime >= now ==>
              SlotOf(d) in Lookup(r, DateKey(d, iso))
    ensures TotalSlots(r) == |Upcoming(docs, movieId, now)|
  {
    var up := Upcoming(docs, movieId, now);
    GroupByDateCorrect(up, iso);
    SlotsOnHoldsEveryDoc(up, iso);
    GroupByDate(up, iso)
  }

  /** The query of `getShow`: shows of the movie starting at or after `now`. */
  function Upcoming(docs: seq<StoredShow>, movieId: MovieId, now: int): (r: seq<StoredShow>)
    ensures forall d :: d in r <==> d in docs && d.show.movie == movieId && d.show.showDateTime >= now
  {
    Filter(docs, (d: StoredShow) => d.show.movie == movieId && d.show.showDateTime >= now)
  }

  lemma {:induction false} AddToGroupLookup(g: seq<DateGroup>, date: string, x: Slot, other: string)
    ensures Lookup(AddToGroup(g, date, x), other) == if other == date then Lookup(g, date) + [x] else Lookup(g, other)
  {
    if |g| > 0 && g[0].date != date {
      AddToGroupLookup(g[1..], date, x, other);
    }
  }

  lemma {:induction false} AddToGroupDates(g: seq<DateGroup>, date: string, x: Slot)
    ensures Dates(AddToGroup(g, date, x)) == if date in Dates(g) then Dates(g) else Dates(g) + [date]
  {
    if |g| > 0 {
      assert Dates(g) == [g[0].date] + Dates(g[1..]);
      if g[0].date != date {
        AddToGroupDates(g[1..], date, x);
        assert Dates(AddToGroup(g, date, x)) == [g[0].date] + Dates(AddToGroup(g[1..], date, x));
      } else {
        assert Dates(AddToGroup(g, date, x)) == [g[0].date] + Dates(g[1..]);
      }
    }
  }

  predicate NoEmptyGroup(g: seq<DateGroup>) {
    forall i :: 0 <= i < |g| ==> |g[i].slots| > 0
  }

  lemma {:induction false} AddToGroupNonEmpty(g: seq<DateGroup>, date: string, x: Slot)
    requires NoEmptyGroup(g)
    ensures NoEmptyGroup(AddToGroup(g, date, x))
  {
    if |g| > 0 && g[0].date != date {
      AddToGroupNonEmpty(g[1..], date, x);
      var rest := AddToGroup(g[1..], date, x);
      var g' := AddToGroup(g, date, x);
      assert g' == [g[0]] + rest;
      forall i | 0 <= i < |g'| ensures |g'[i].slots| > 0 {
        if i > 0 {
          assert g'[i] == rest[i - 1];
        }
      }
    } else if |g| > 0 {
      var g' := AddToGroup(g, date, x);
      assert forall i :: 1 <= i < |g'| ==> g'[i] == g[i];
    }
  }

  lemma {:induction false} AddToGroupTotal(g: seq<DateGroup>, date: string, x: Slot)
    ensures TotalSlots(AddToGroup(g, date, x)) == TotalSlots(g) + 1
  {
    if |g| > 0 {
      if g[0].date != date {
        AddToGroupTotal(g[1..], date, x);
      } else {
        assert AddToGroup(g, date, x)[1..] == g[1..];
      }
    }
  }

  /** Some show among `docs` has `date` as its key. */
  predicate HasDate(docs: seq<StoredShow>, iso: int -> string, date: string) {
    exists k :: 0 <= k < |docs| && DateKey(docs[k], iso) == date
  }

  lemma HasDateLast(docs: seq<StoredShow>, iso: int -> string, date: string)
    requires |docs| > 0
    ensures HasDate(docs, iso, date) <==>
              HasDate(docs[..|docs| - 1], iso, date) || DateKey(docs[|docs| - 1], iso) == date
  {
    var init := docs[..|docs| - 1];
    if HasDate(docs, iso, date) {
      var k :| 0 <= k < |docs| && DateKey(docs[k], iso) == date;
      if k < |docs| - 1 {
        assert init[k] == docs[k];
      }
    }
    if HasDate(init, iso, date) {
      var k :| 0 <= k < |init| && DateKey(init[k], iso) == date;
      assert docs[k] == init[k];
    }
  }

  lemma {:induction false} GroupByDateKey(docs: seq<StoredShow>, iso: int -> string, date: string)
    ensures date in Dates(GroupByDate(docs, iso)) <==> HasDate(docs, iso, date)
  {
    if |docs| > 0 {
      var init := docs[..|docs| - 1];
      var last := docs[|docs| - 1];
      GroupByDateKey(init, iso, date);
      AddToGroupDates(GroupByDate(init, iso), DateKey(last, iso), SlotOf(last));
      HasDateLast(docs, iso, date);
    }
  }

  lemma {:induction false} GroupByDateDistinct(docs: seq<StoredShow>, iso: int -> string)
    ensures NoDuplicates(Dates(GroupByDate(docs, iso)))
  {
    if |docs| > 0 {
      var init := docs[..|docs| - 1];
      var last := docs[|docs| - 1];
      GroupByDateDistinct(init, iso);
      AddToGroupDates(GroupByDate(init, iso), DateKey(last, iso), SlotOf(last));
    }
  }

  /** The grouped dates are distinct, and are exactly the keys of the shows. */
  lemma GroupByDateDates(docs: seq<StoredShow>, iso: int -> string)
    ensures NoDuplicates(Dates(GroupByDate(docs, iso)))
    ensures forall date :: date in Dates(GroupByDate(docs, iso)) <==> HasDate(docs, iso, date)
  {
    GroupByDateDistinct(docs, iso);
    forall date ensures date in Dates(GroupByDate(docs, iso)) <==> HasDate(docs, iso, date) {
      GroupByDateKey(docs, iso, date);
    }
  }

  lemma {:induction false} GroupByDateLookup(docs: seq<StoredShow>, iso: int -> string, date: string)
    ensures Lookup(GroupByDate(docs, iso), date) == SlotsOn(docs, iso, date)
  {
    if |docs| > 0 {
      var init := docs[..|docs| - 1];
      var last := docs[|docs| - 1];
      GroupByDateLookup(init, iso, date);
      AddToGroupLookup(GroupByDate(init, iso), DateKey(last, iso), SlotOf(last), date);
    }
  }

  /** The grouping is correct: dates are distinct, no group is empty, a date
      appears exactly when some show falls on it, each date lists exactly its
      shows in query order, and no show is lost or repeated in the count. */
  lemma GroupByDateCorrect(docs: seq<StoredShow>, iso: int -> string)
    ensures var g := GroupByDate(docs, iso);
            && NoDuplicates(Dates(g))
            && NoEmptyGroup(g)
            && (forall date :: date in Dates(g) <==> HasDate(docs, iso, date))
            && (forall date :: Lookup(g, date) == SlotsOn(docs, iso, date))
            && TotalSlots(g) == |docs|
  {
    GroupByDateDates(docs, iso);
    forall date ensures Lookup(GroupByDate(docs, iso), date) == SlotsOn(docs, iso, date) {
      GroupByDateLookup(docs, iso, date);
    }
  }

  /** A timestamp string that starts with `date` followed by 'T' has `date`
      as its date part, whatever follows (seconds, milliseconds, zone). */
  lemma {:induction false} DatePartOfPrefix(s: string, date: string)
    requires 'T' !in date && |date| < |s| && s[..|date| + 1] == date + "T"
    ensures DatePart(s) == date
  {
    if |date| == 0 {
      assert s[0] == (date + "T")[0];
    } else {
      assert s[0] == (date + "T")[0] == date[0];
      assert s[1..][..|date[1..]| + 1] == s[1..|date| + 1] == (date + "T")[1..] == date[1..] + "T";
      DatePartOfPrefix(s[1..], date[1..]);
    }
  }

  /** A show whose ISO timestamp starts with an input date and 'T' (as
      "2024-05-01T10:00:00.000Z" does for the date "2024-05-01") is listed
      under that date. */
  lemma AddedShowListedUnderItsDate(docs: seq<StoredShow>, k: nat, input: ShowInput, iso: int -> string)
    requires k < |docs| && 'T' !in input.date
    requires |input.date| < |iso(docs[k].show.showDateTime)|
    requires iso(docs[k].show.showDateTime)[..|input.date| + 1] == input.date + "T"
    ensures input.date in Dates(GroupByDate(docs, iso))
    ensures SlotOf(docs[k]) in Lookup(GroupByDate(docs, iso), input.date)
  {
    DatePartOfPrefix(iso(docs[k].show.showDateTime), input.date);
    GroupByDateDates(docs, iso);
    SlotsOnHoldsEveryDoc(docs, iso);
    GroupByDateLookup(docs, iso, input.date);
  }

  lemma {:induction false} SlotsOnComeFromDocs(docs: seq<StoredShow>, iso: int -> string, date: string, x: Slot)
    requires x in SlotsOn(docs, iso, date)
    ensures exists d :: d in docs && SlotOf(d) == x && DateKey(d, iso) == date
  {
    var init := docs[..|docs| - 1];
    var last := docs[|docs| - 1];
    if x in SlotsOn(init, iso, date) {
      SlotsOnComeFromDocs(init, iso, date, x);
      var d :| d in init && SlotOf(d) == x && DateKey(d, iso) == date;
      assert d in docs;
    } else {
      assert last in docs;
    }
  }

  /** Every show appears among the slots of its own date. */
  lemma {:induction false} SlotsOnHoldsEveryDoc(docs: seq<StoredShow>, iso: int -> string)
    ensures forall d :: d in docs ==> SlotOf(d) in SlotsOn(docs, iso, DateKey(d, iso))
  {
    if |docs| > 0 {
      var init := docs[..|docs| - 1];
      SlotsOnHoldsEveryDoc(init, iso);
      forall d | d in docs ensures SlotOf(d) in SlotsOn(docs, iso, DateKey(d, iso)) {
        if d != docs[|docs| - 1] {
          var k :| 0 <= k < |docs| && docs[k] == d;
          assert init[k] == d;
        }
      }
    }
  }

  /** Everything `getShow` lists is an upcoming show of the requested movie,
      under its own date, and every such show is listed. */
  lemma GetShowListsUpcomingShows(docs: seq<StoredShow>, movieId: MovieId, now: int, iso: int -> string,
                                  date: string, x: Slot)
    ensures x in Lookup(GetShow(docs, movieId, now, iso), date) ==>
              exists d :: d in docs && d.show.movie == movieId && d.show.showDateTime >= now &&
                          SlotOf(d) == x && DateKey(d, iso) == date
    ensures forall d :: d in docs && d.show.movie == movieId && d.show.showDateTime >= now ==>
              SlotOf(d) in Lookup(GetShow(docs, movieId, now, iso), DateKey(d, iso))
    ensures TotalSlots(GetShow(docs, movieId, now, iso)) == |Upcoming(docs, movieId, now)|
  {
    var up := Upcoming(docs, movieId, now);
    GroupByDateCorrect(up, iso);
    SlotsOnHoldsEveryDoc(up, iso);
    if x in Lookup(GetShow(docs, movieId, now, iso), date) {
      SlotsOnComeFromDocs(up, iso, date, x);
    }
  }

  /** `addShow` refuses only a zero price: a negative one is stored, and every
      later booking of such a show fails with the invalid-price error. */
  lemma NegativePriceStoredButUnbookable(movieId: Option<MovieId>, showsInput: Option<seq<ShowInput>>,
                                         showPrice: Option<int>, parse: string -> int, k: nat,
                                         st: BookingController.Store, showId: ShowId, user: UserId,
                                         seats: Option<seq<SeatId>>, now: int, id: BookingId)
    requires !FalsyString(movieId) && showsInput.Some? && k < |showsInput.value|
    requires showPrice.Some? && showPrice.value < 0
    requires showId in st.shows
    requires st.shows[showId] == ShowsToCreate(movieId.value, showsInput.value, showPrice.value, parse)[k]
    requires BookingController.SeatCountOk(seats) && st.shows[showId].showDateTime > now
    ensures AddShow(movieId, showsInput, showPrice, parse).Ok?
    ensures BookingController.CreateBooking(st, user, showId, seats, now, id).reply
            == BookingController.Rejected(BookingController.InvalidPrice)
  {
  }
}

=== FILE: users.dfy ===
/** The user controller: the favorites toggle and the favorites query. */
module UserController {
  import opened Wrappers
  import opened Seqs
  import opened Schemas

  datatype UserError = MissingMovieId | Unauthorized | UserNotFound

  /** HTTP status of each failure: the three errors have three distinct codes. */
  function Status(e: UserError): (r: int)
    ensures r == 400 <==> e.MissingMovieId?
    ensures r == 401 <==> e.Unauthorized?
    ensures r == 404 <==> e.UserNotFound?
  {
    match e
    case MissingMovieId => 400
    case Unauthorized => 401
    case UserNotFound => 404
  }

  /** The user collection. */
  type Users = map<UserId, User>

  datatype FavoriteOutcome = FavoriteOutcome(users: Users, reply: Result<seq<MovieId>, UserError>)

  /** `updateFavorite`: toggles `movieId` in the caller's favorites (an absent
      list counts as empty) and replies with the new list. */
  function UpdateFavorite(users: Users, caller: UserId, movieId: Option<MovieId>): (r: FavoriteOutcome)
    ensures (movieId.None? || movieId.value == "") ==> r == FavoriteOutcome(users, Err(MissingMovieId))
    ensures movieId.Some? && movieId.value != "" && caller !in users ==>
              r == FavoriteOutcome(users, Err(UserNotFound))
    ensures r.reply.Ok? <==> movieId.Some? && movieId.value != "" && caller in users
    ensures r.reply.Ok? ==>
              && r.users.Keys == users.Keys
              && (forall u :: u in users && u != caller ==> r.users[u] == users[u])
              && r.users[caller] == users[caller].(favorites := Some(r.reply.value))
              && r.reply.value == Toggle(users[caller].favorites.GetOr([]), movieId.value)
  {
    if movieId.None? || movieId.value == "" then FavoriteOutcome(users, Err(MissingMovieId))
    else if caller !in users then FavoriteOutcome(users, Err(UserNotFound))
    else
      var user := users[caller];
      var favorites := Toggle(user.favorites.GetOr([]), movieId.value);
      FavoriteOutcome(users[caller := user.(favorites := Some(favorites))], Ok(favorites))
  }

  /** Favoriting a movie that is not yet a favorite and then un-favoriting it
      restores the list (an absent list comes back as an empty one). */
  lemma FavoriteTwiceRestores(users: Users, caller: UserId, movieId: MovieId)
    requires movieId != "" && caller in users
    requires movieId !in users[caller].favorites.GetOr([])
    ensures var once := UpdateFavorite(users, caller, Some(movieId));
            var twice := UpdateFavorite(once.users, caller, Some(movieId));
            && twice.reply == Ok(users[caller].favorites.GetOr([]))
            && twice.users == users[caller := users[caller].(favorites := Some(users[caller].favorites.GetOr([])))]
  {
    var favs := users[caller].favorites.GetOr([]);
    ToggleTwiceRestores(favs, movieId);
  }

  /** Un-favoriting removes every occurrence of the movie and keeps the other
      entries, in order and with their multiplicity. */
  lemma UnfavoriteRemovesEveryOccurrence(users: Users, caller: UserId, movieId: MovieId)
    requires movieId != "" && caller in users
    requires movieId in users[caller].favorites.GetOr([])
    ensures var favs := users[caller].favorites.GetOr([]);
            var r := UpdateFavorite(users, caller, Some(movieId));
            && r.reply.Ok?
            && IsSubsequence(r.reply.value, favs)
            && Count(r.reply.value, movieId) == 0
            && forall m :: m != movieId ==> Count(r.reply.value, m) == Count(favs, m)
  {
    ToggleRemovesAll(users[caller].favorites.GetOr([]), movieId);
  }

  /** `getFavorites`: 401 without a caller id, 404 for an unknown user, an empty
      list when the user has no favorites list, otherwise the catalog movies
      whose id is a favorite (in catalog order). */
  function GetFavorites(users: Users, caller: Option<UserId>, catalog: seq<MovieId>): (r: Result<seq<MovieId>, UserError>)
    ensures caller.None? || caller.value == "" ==> r == Err(Unauthorized)
    ensures caller.Some? && caller.value != "" && caller.value !in users ==> r == Err(UserNotFound)
    ensures r.Ok? <==> caller.Some? && caller.value != "" && caller.value in users
    ensures r.Ok? && users[caller.value].favorites.None? ==> r.value == []
    ensures r.Ok? ==> forall m :: m in r.value <==>
              m in catalog && m in users[caller.value].favorites.GetOr([])
  {
    if caller.None? || caller.value == "" then Err(Unauthorized)
    else if caller.value !in users then Err(UserNotFound)
    else match users[caller.value].favorites
      case None => Ok([])
      case Some(favs) => Ok(Filter(catalog, m => m in favs))
  }

  /** Round trip with the toggle: right after a caller favorites a catalog
      movie it is among their listed favorites, and right after they
      un-favorite it, it is not. */
  lemma ToggledMovieListed(users: Users, caller: UserId, movieId: MovieId, catalog: seq<MovieId>)
    requires movieId != "" && caller != "" && caller in users
    ensures var after := UpdateFavorite(users, caller, Some(movieId)).users;
            var listed := GetFavorites(after, Some(caller), catalog);
            && listed.Ok?
            && (movieId in listed.value <==>
                  movieId in catalog && movieId !in users[caller].favorites.GetOr([]))
  {
  }
}

=== FILE: wrappers.dfy ===
/** Failure-carrying datatypes shared by every module of the model. */
module Wrappers {

  /** A value that may be absent: a missing request field, an unset document path. */
  datatype Option<+T> = None | Some(value: T) {

    /** The carried value, or `default` when absent (the `x || default` idiom). */
    function GetOr(default: T): T {
      match this
      case Some(v) => v
      case None => default
    }
  }

  /** Either a result or an error value. */
  datatype Result<+T, +E> = Ok(value: T) | Err(error: E)
}
